=== FILE: README.md ===
# license-please, modelled in Dafny

license-please builds a third-party license report for a Go project. It has
four stages:

1. It resolves the project's module dependencies.
2. It walks each module's directory for files whose names look like license
   files, skipping `vendor` directories.
3. It classifies each such file by content into SPDX license identifiers.
4. It aggregates the results into one `LicenseFile` record per file.

The CLI then sorts the records by module path and relative path. It refuses
to write a report when any license is outside an allow-list of nine SPDX
identifiers.

This project models that core as pure functions over immutable data:

- `Taxonomy` (taxonomy.dfy): the license taxonomy. It covers the nine known
  license variants, `UnknownLicense` and `NoticeFile`, and their SPDX
  identifiers. It also covers the identifier lookup, the allow-list derived
  from it, and the distribution artifacts each license requires (Apache-2.0
  also requires the NOTICE files that are present).
- `FilePattern` (pattern.dfy): the case-insensitive license file-name
  pattern. It is written as an executable predicate, and a lemma proves it
  equivalent to a declarative reading of the regular expression.
- `Finder` (finder.dfy): the recursive finder. It works over a directory tree
  given as a value, with vendor pruning, unreadable directories,
  cancellation and error wrapping. Its result is proved equal to a filtered
  pre-order of the whole tree.
- `Classifier` (classifier.dfy): the classifier's post-processing of the
  matcher's results. It keeps license matches only, keeps each name once in
  order of first appearance, and attaches the taxonomy variant.
- `Aggregator` (aggregator.dfy): the pipeline. The resolver, finder and
  classifier are function parameters, and every error carries the same
  context wrapping as the Go code.
- `Report` (report.dfy): the CLI's sort, the allow-list gate, its violation
  lines, and the root package's `licenseNames`.
- `CliLabels` (labels.dfy): the `cli` package's `licenseNames`. It lists the
  SPDX identifiers of the license types, and labels an unclassified
  NOTICE/COPYRIGHT file `(NOTICE file)`.
- Support modules:
  - `Results`: errors, modelled after Go's `%w` wrapping, plus result and
    option types.
  - `Text`: ASCII upper-casing, substring search, `strings.Join`, a comma
    splitter used to state round trips, and Go's byte-wise string order.
  - `Paths`: `filepath.Join`, `Rel` and `Ext`.
  - `Domain`: the `Module`, `License` and `LicenseFile` records.
- `Scenarios` (scenarios.dfy): small end-to-end runs, proved for fixed
  inputs.

## Model

| member | source | states |
|---|---|---|
| Taxonomy.KnownLicensesConsistent | licenseplease.go:153-163 | every entry of the known-license map is a known variant whose SPDX identifier is its key, and every known variant appears under its own identifier |
| Taxonomy.SpdxTellsKnownApart | licenseplease.go:32-147 | a known variant's identifier is in the known-license map, differs from "(NOTICE)", and equals another known variant's identifier only for that same variant |
| Taxonomy.LicenseTypeFromSpdx | licenseplease.go:166-171 | the variant looked up for an identifier reports that same identifier; it is a known variant exactly when the identifier is in the known-license map; lookup never yields the NOTICE variant |
| Taxonomy.FromSpdxOfKnown | licenseplease.go:166-171 | looking up a known variant's identifier gives back that variant |
| Taxonomy.FromSpdxOfUnknown | licenseplease.go:166-171 | an identifier outside the map is wrapped as UnknownLicense carrying the identifier |
| Taxonomy.FromSpdxIdempotent | licenseplease.go:132-171 | looking up the identifier of a looked-up variant gives the same variant |
| Taxonomy.AllowedLicenses | licenseplease.go:174-180 | an identifier is allowed exactly when lookup classifies it as a known license; "(NOTICE)" and "" are never allowed |
| Taxonomy.UnknownNeverAllowed | licenseplease.go:166-180 | an identifier that lookup turns into UnknownLicense is not in the allowed set |
| Taxonomy.PresentNotices | licenseplease.go:47-53 | the NOTICE candidates kept are exactly those present, in candidate order, never more than the candidates |
| Taxonomy.CollectArtifacts | licenseplease.go:22-150 | never fails; the license file comes first; every variant except Apache-2.0 requires only that file; Apache-2.0 adds exactly the NOTICE, NOTICE.txt and NOTICE.md files present in the module, in that order, so at most four artifacts |
| Taxonomy.ApacheArtifactsSingleNotice | licenseplease.go:44-55 | when only one NOTICE candidate is present, Apache-2.0 requires the license file and that candidate, otherwise the license file alone |
| FilePattern.LicenseFileNameIsPattern | licenseplease.go:253 | the executable name test accepts a name exactly when it splits into a case-insensitive LICENSE/LICENCE/UNLICENSE/UNLICENCE/COPYING/NOTICE/COPYRIGHT stem and an optional extension of a dot and one or more ASCII letters of either case |
| FilePattern.AcceptsSplit | licenseplease.go:253 | a name made of an accepted stem and an optional extension is accepted |
| FilePattern.AcceptsMixedCaseWithExtension | licenseplease_test.go:27 | "License.txt" is accepted (mixed case stem, extension) |
| FilePattern.AcceptsUnlicense | licenseplease_test.go:262 | "Unlicense" is accepted |
| FilePattern.RejectsPlural | licenseplease_test.go:266 | "licenses.go" is rejected |
| FilePattern.RejectsReadme | licenseplease_test.go:263 | "README.md" is rejected |
| FilePattern.RejectsGoFiles | licenseplease_test.go:264-265 | "main.go" and "go.mod" are rejected |
| FilePattern.RejectsVendor | licenseplease.go:253 | "vendor", the name the walk prunes, is not a license file name |
| Finder.Find | licenseplease.go:255-284 | a module without a directory yields no paths and no error; a cancelled context makes the find fail; every path found lies under the module directory; every failure carries the context "walking module" followed by the module path; the walk's root entry is named `filepath.Base` of the module directory |
| Finder.Walk | licenseplease.go:261-279 | a cancelled walk fails with the cancellation error; every reported path lies under the walked path; every other failure is an unreadable directory under it |
| Finder.WalkChildren | licenseplease.go:261-279 | the walk of a directory's remaining children reports only paths under the directory and fails only with cancellation or an unreadable directory under it |
| Finder.FindSkipsVendorRoot | licenseplease.go:268-271 | a module whose directory is itself named vendor yields no paths |
| Finder.FoundPathsRelExact | licenseplease.go:350 | every path the finder returns is the module directory itself, whose relative path is ".", or joins back from its relative path, so the inexact case of Paths.Rel is never reached through the finder |
| Finder.WalkIsFilteredPreorder | licenseplease.go:261-279 | the pruning walk succeeds exactly when no unpruned directory in the full pre-order is unreadable, and then returns exactly the unpruned license-named files of that pre-order, in order |
| Finder.WalkChildrenIsFilteredPreorder | licenseplease.go:261-279 | the same equivalence for the remaining children of a directory |
| Finder.FindReportsUnprunedLicenseFiles | licenseplease.go:255-284 | for an existing module tree and no cancellation, the finder fails exactly when an unpruned directory cannot be read; otherwise a path is returned exactly when it names a license file outside every vendor directory |
| Finder.PrunedReportsNothing | licenseplease.go:268-272 | nothing under a vendor directory is ever reported |
| Finder.PrunedStaysPruned | licenseplease.go:270-271 | every visit below a skipped directory is itself skipped |
| Finder.ReportsMembers | licenseplease.go:275-277 | a path is reported exactly when some visit of it is an unpruned license-named file |
| Finder.ReportsAppend | licenseplease.go:276 | reports of consecutive parts of the walk concatenate |
| Finder.FindCancelled | licenseplease.go:265-282 | with a cancelled context the finder fails with the cancellation error wrapped by "walking module" and the module path |
| Classifier.FirstLicenseIndex | licenseplease.go:308-315 | the position found is the first license match of the name, or the end when there is none |
| Classifier.FirstMatchNames | licenseplease.go:308-315 | a name has a first license match exactly when some match of type "License" carries it |
| Classifier.FilterMatches | licenseplease.go:305-321 | the kept names are exactly the names of the license matches; each kept license is typed by taxonomy lookup of its name; names appear once each, in order of first license match |
| Classifier.Classify | licenseplease.go:299-321 | an unreadable file fails with "reading license file" wrapping the read error; otherwise it succeeds, keeping exactly the license-match names, once each, in order of first appearance, each typed by taxonomy lookup |
| Aggregator.Aggregate | licenseplease.go:331-360 | a resolver failure is returned wrapped as "resolving modules"; every entry of a successful run belongs to a resolved module, is a path the finder returned for that module, carries its path relative to the module's directory, and holds the classifier's licenses for its path |
| Aggregator.AggregateModules | licenseplease.go:337-359 | every entry of a successful loop belongs to one of the modules, is a path the finder returned for it, carries its path relative to the module's directory, and holds the classifier's licenses for its path |
| Aggregator.ClassifyPaths | licenseplease.go:344-357 | one entry per found path, in order, with the relative path and the classifier's licenses |
| Aggregator.ClassifyPathsSpec | licenseplease.go:344-349 | classification of a module's paths succeeds exactly when every path classifies, and otherwise fails with "classifying" and the first failing path wrapping its error |
| Aggregator.AggregateModulesSpec | licenseplease.go:337-359 | the per-module loop succeeds exactly when every module's find and every classification succeed, and then yields the concatenation of each module's entries in module order |
| Aggregator.AggregateModulesFailsFirst | licenseplease.go:338-348 | a failing loop fails at the first module whose find or classification fails, with "finding licenses in" and the module path, or "classifying" and the path, wrapped around that stage's error |
| Aggregator.AggregateSpec | licenseplease.go:331-360 | the whole aggregation succeeds exactly when the resolver and every later stage succeed, and then yields the concatenation of all modules' entries |
| Aggregator.AggregateFailsFirst | licenseplease.go:338-348 | after a successful resolution, a failing aggregation reports the first failing module's error |
| Aggregator.ResolverFailureSkipsLaterStages | licenseplease.go:332-335 | once the resolver fails, the finder and classifier cannot affect the result |
| Aggregator.FlattenLength | licenseplease.go:337-359 | a successful aggregation has one entry per found path, summed over modules |
| Aggregator.UniformModulesGiveProduct | licenseplease_test.go:183-215 | when every stage succeeds and each of the N resolved modules has M found paths, the aggregation succeeds with exactly N times M entries |
| Report.AllowedMatchesTaxonomy | cli.go:15-25 | the CLI's allow-list is the same set as the taxonomy's allowed licenses (licenseplease.go, lines 174-180) |
| Report.DisallowedOutsideTaxonomy | cli.go:53 | a license is flagged exactly when its name is non-empty and taxonomy lookup does not make it a known variant |
| Report.FileViolations | cli.go:52-56 | a file yields at most one violation per license, each naming a license that is neither allowed nor empty, with the file's module path, version and relative path |
| Report.Violations | cli.go:50-57 | every violation names a license that is neither allowed nor empty |
| Report.FileViolationsCount | cli.go:52-56 | a file yields exactly as many violations as it has flagged licenses |
| Report.ViolationsCount | cli.go:50-57 | the number of violations equals the number of flagged (file, license) pairs, so two equal-looking flagged licenses give two lines |
| Report.LineInjective | cli.go:54 | the violation line `path@version: name (relPath)` determines the violation when the module path has no "@", the version no ":" and the name no "(", so distinct violations print distinct lines |
| Report.FileViolationsMembers | cli.go:52-56 | a file's violations are exactly its licenses that are neither allowed nor unnamed |
| Report.ViolationsMembers | cli.go:50-57 | a violation is listed exactly when some file carries that disallowed, non-empty license name |
| Report.ViolationsAppend | cli.go:51-57 | the violations of consecutive files concatenate |
| Report.KeyLessStrict | cli.go:42-47 | the sort comparison is irreflexive and asymmetric |
| Report.KeyLeqTotal | cli.go:42-47 | any two records are comparable under the sort key (module path, then relative path) |
| Report.KeyLeqTransitive | cli.go:42-47 | the sort key order is transitive |
| Report.Insert | cli.go:42-47 | inserting into a sorted list keeps it sorted and adds exactly that record |
| Report.SortFiles | cli.go:42-47 | the result is ordered by module path and then relative path, and is a permutation of the input |
| Report.SortKeepsViolations | cli.go:42-57 | sorting does not change the multiset of violations |
| Report.Run | cli.go:35-60 | an aggregation error is returned unchanged; a success is the sorted permutation of the aggregation; a gate failure reports a positive count equal to the number of listed violations |
| Report.RunGate | cli.go:49-60 | the gate fails exactly when some file carries a license name that is neither allowed nor empty |
| Report.RunListsViolations | cli.go:49-59 | a failing gate lists the violation lines of the sorted files, and those violations, as a multiset, are the violations of the unsorted aggregation |
| Report.RunCountsFlagged | cli.go:50-59 | a failing gate reports a count equal to the number of flagged (file, license) pairs of the aggregation |
| Report.LicenseNames | cli.go:118-127 | a file without licenses is labelled "Unknown"; a single license is labelled by its name; several are separated by ", " |
| Report.LicenseNamesListsNames | cli.go:118-127 | a file without licenses is labelled "Unknown"; otherwise, when no license name contains a comma, splitting the label at ", " gives back the license names, in order |
| CliLabels.LicenseNames | cli/cli.go:85-93 | a file without licenses is labelled "(NOTICE file)" exactly when its upper-cased path, without the extension, contains NOTICE or COPYRIGHT, and "Unknown" otherwise |
| CliLabels.LicenseNamesListsSpdx | cli/cli.go:94-98 | with licenses present and no SPDX identifier containing a comma, splitting the label at ", " gives back the identifiers in order; the label does not depend on the file's path |
| CliLabels.AgreesWithReportLabel | cli/cli.go:85-99 | for classifier-typed licenses, this label and the root package's (cli.go, lines 118-127) differ exactly on an unclassified NOTICE/COPYRIGHT file |
| CliLabels.NoticeInSubdirectory | cli/cli.go:86-91 | "docs/NOTICE.md" is labelled as a NOTICE file |
| CliLabels.CopyrightIsMarked | cli/cli.go:86-91 | "copyright.txt" is labelled as a NOTICE file |
| CliLabels.DirectoryNameIsMarked | cli/cli.go:88-89 | the test looks at the whole relative path, so an unclassified "notices/LICENSE" is labelled a NOTICE file too |
| CliLabels.LicenseIsUnknown | cli/cli.go:86-92 | an unclassified "LICENSE" is labelled "Unknown" |
| Paths.RelOfJoin | licenseplease.go:350 | the path of a joined file relative to its directory is the joined name |
| Paths.Rel | licenseplease.go:350 | a path relative to itself is "."; a result other than "" and "." joined back onto the base gives the target; with an empty base an absolute target gives "", as the ignored error of filepath.Rel does |
| Paths.RelUnder | licenseplease.go:350 | on a path under a non-empty base, the relative path is what follows the base and joins back onto the base to give the path |
| Paths.Base | licenseplease.go:261-270 | the last element is never empty; the empty path gives "."; apart from the root "/" it contains no slash |
| Paths.BaseOfJoin | licenseplease.go:261-270 | the last element of a joined path is the slash-free name that was joined |
| Paths.Ext | cli/cli.go:88 | the extension is a suffix of the path that is empty or starts with its only dot and contains no slash; it is empty only when every dot is followed by a slash |
| Paths.TrimExt | cli/cli.go:88 | removing the extension leaves a stem that, followed by the extension, is the path |
| Text.Upper | cli/cli.go:88 | upper-casing keeps the length, leaves no lower-case ASCII letter, changes no other character, and maps each lower-case letter to its capital |
| Text.SplitJoin | cli.go:126 | joining comma-free items with ", " and splitting again gives back the items |
| Text.LessTransitive | cli.go:44-46 | Go's string order is transitive |
| Text.LessTotal | cli.go:44-46 | two different strings are ordered one way or the other |
| Scenarios.OneFileRunEntry | licenseplease_test.go:183-215 | one module with one LICENSE file yields one entry whose relative path is "LICENSE" and whose licenses are the classifier's |
| Scenarios.MitDependencyPasses | cli.go:49-60 | an MIT dependency passes the gate |
| Scenarios.GplDependencyFails | cli.go:49-60 | a GPL-3.0 dependency fails the gate with the single line "a@v1.0.0: GPL-3.0 (LICENSE)" |
| Scenarios.ResolverFailureAbortsRun | licenseplease_test.go:228-241 | a failing resolver makes the run fail with the resolver's error wrapped as "resolving modules" |
| Scenarios.VendoredLicenseIsSkipped | licenseplease_test.go:22-80 | in a tree with a vendored dependency, only the module's own LICENSE is found |
| Scenarios.VendorModuleIsSkipped | licenseplease.go:268-271 | a module whose directory is /x/vendor yields no paths, whatever its tree holds |

## Left out

- `GoModResolver.Resolve` (licenseplease.go:221-248) runs `go mod download -json` and decodes its output. The resolver is a function parameter of `Aggregator.Aggregate`.
- The content matcher (`NewGoogleLicenseClassifier` and `Match`) and `os.ReadFile` are external. `Classifier.Classify` receives the matcher's results as an `Option`, where `None` stands for an unreadable file.
- `writeReport`/`WriteReport`, `LicenseURL`, and the kong `Run`/`Execute` entry points are formatting and I/O. The allow-list gate before the report is modelled.
- The gate's error text ("found %d dependencies with disallowed licenses:" followed by the lines) is modelled as `Disallowed(count, lines)`, not as one formatted string.
- Taxonomy.CollectArtifacts: the module directory is given as the set of file names present at its top level. Every `os.Stat` error counts as "not present".
- Finder.Find: the directory tree is given as a value, and children are visited in the given order. `filepath.WalkDir` sorts them lexically, so the walk order is as good as the order of the input. A context cancelled part-way through the walk is not modelled: cancellation is a fixed flag, checked at every visit.
- Finder.Find: a failing `Lstat` of the module root is modelled as `Io("lstat", dir)` when no tree is given. A failing `ReadDir` is modelled as an unreadable directory. Its `vendor` name is checked before the failure matters, which is the order `WalkDir` uses.
- Paths.Rel: it strips the directory prefix, and an empty base is read as the current directory, as `filepath.Rel` does after cleaning. For a target outside a non-empty base the model returns "", where `filepath.Rel` returns a path climbing out with `../` and no error; the finder never returns such a target (`Finder.FoundPathsRelExact`), but a resolver or finder passed to `Aggregator.Aggregate` may. Path cleaning, a base of `.` and trailing slashes are not modelled either.
- Paths.Join: an empty name and cleaning of the joined path are not modelled; the walk only joins non-empty directory entry names.
- Text.Upper: it upper-cases ASCII letters only. Go's `strings.ToUpper` and the regular expression's `(?i)` also fold other Unicode letters.
- FilePattern.IsLicenseFileName: ASCII case folding only. Under `(?i)` Go's regular expression also matches U+017F (long s) for `s` and U+212A (Kelvin sign) for `k`, in the stem and in the extension; the model rejects names containing them.
- Report.SortFiles: `sort.Slice` is not stable and leaves the order of equal keys unspecified. The model uses a stable insertion sort and states only that the result is sorted and a permutation, which is all the Go code guarantees.
- Text.Less: Go compares strings byte by byte in UTF-8. The model compares characters, which gives the same order on ASCII text.
- `classifyType`, the `Result` type and the `licenseplease.Run` variant that appear only in the tests belong to a different version of the code and are not modelled.
- The end-to-end tests build and run real programs and are not modelled.

=== FILE: aggregator.dfy ===
/** The aggregator: resolve modules, find each module's license files,
    classify each file, and flatten the results in module-then-file order.
    The three stages are injected as functions, as the Go interfaces are. */
module Aggregator {
  import opened Results
  import opened Paths
  import opened Domain

  /** ModuleResolver.Resolve for a project directory. */
  type Resolver = string -> Result<seq<Module>>
  /** LicenseFinder.Find for one module. */
  type Finder = Module -> Result<seq<string>>
  /** LicenseClassifier.Classify for one file path. */
  type Classifier = string -> Result<seq<License>>

  /** The entry built for one classified file of module `m`. */
  function Entry(m: Module, path: string, licenses: seq<License>): LicenseFile
  {
    LicenseFile(path, Rel(m.dir, path), m, licenses)
  }

  /** Runs the whole pipeline; the first failing stage ends it. */
  function Aggregate(resolve: Resolver, find: Finder, classify: Classifier, projectDir: string): (r: Result<seq<LicenseFile>>)
    ensures resolve(projectDir).Err? ==> r == Err(Wrapped("resolving modules", resolve(projectDir).error))
    ensures r.Ok? ==> forall k :: 0 <= k < |r.value| ==>
      r.value[k].mod in resolve(projectDir).value && classify(r.value[k].path) == Ok(r.value[k].licenses)
    ensures r.Ok? ==> forall k :: 0 <= k < |r.value| ==>
      r.value[k].relPath == Rel(r.value[k].mod.dir, r.value[k].path)
    ensures r.Ok? ==> forall k :: 0 <= k < |r.value| ==>
      find(r.value[k].mod).Ok? && r.value[k].path in find(r.value[k].mod).value
  {
    var modules := resolve(projectDir);
    if modules.Err? then Err(Wrapped("resolving modules", modules.error))
    else AggregateModules(modules.value, find, classify)
  }

  /** The loop over modules, in resolver order. */
  function AggregateModules(mods: seq<Module>, find: Finder, classify: Classifier): (r: Result<seq<LicenseFile>>)
    ensures r.Ok? ==> forall k :: 0 <= k < |r.value| ==>
      r.value[k].mod in mods && classify(r.value[k].path) == Ok(r.value[k].licenses)
    ensures r.Ok? ==> forall k :: 0 <= k < |r.value| ==>
      r.value[k].relPath == Rel(r.value[k].mod.dir, r.value[k].path)
    ensures r.Ok? ==> forall k :: 0 <= k < |r.value| ==>
      find(r.value[k].mod).Ok? && r.value[k].path in find(r.value[k].mod).value
    decreases |mods|
  {
    if |mods| == 0 then Ok([])
    else
      var m := mods[0];
      var paths := find(m);
      if paths.Err? then Err(Wrapped("finding licenses in " + m.path, paths.error))
      else
        var here := ClassifyPaths(m, paths.value, classify);
        if here.Err? then here
        else
          var rest := AggregateModules(mods[1..], find, classify);
          if rest.Err? then rest
          else
            assert forall k :: 0 <= k < |rest.value| ==> rest.value[k].mod in mods;
            assert forall k :: 0 <= k < |here.value| ==> here.value[k].mod == m && here.value[k].path == paths.value[k];
            Ok(here.value + rest.value)
  }

  /** The loop over one module's found paths, in finder order. */
  function ClassifyPaths(m: Module, paths: seq<string>, classify: Classifier): (r: Result<seq<LicenseFile>>)
    ensures r.Ok? ==> |r.value| == |paths|
    ensures r.Ok? ==> forall k :: 0 <= k < |r.value| ==>
      r.value[k] == Entry(m, paths[k], r.value[k].licenses) && classify(paths[k]) == Ok(r.value[k].licenses)
    decreases |paths|
  {
    if |paths| == 0 then Ok([])
    else
      var licenses := classify(paths[0]);
      if licenses.Err? then Err(Wrapped("classifying " + paths[0], licenses.error))
      else
        var rest := ClassifyPaths(m, paths[1..], classify);
        if rest.Err? then rest else Ok([Entry(m, paths[0], licenses.value)] + rest.value)
  }

  /** Finding `m`'s files and classifying each of them succeeds. */
  ghost predicate ModuleSucceeds(m: Module, find: Finder, classify: Classifier)
  {
    find(m).Ok? && forall p :: p in find(m).value ==> classify(p).Ok?
  }

  ghost predicate StagesSucceed(mods: seq<Module>, find: Finder, classify: Classifier)
  {
    forall i :: 0 <= i < |mods| ==> ModuleSucceeds(mods[i], find, classify)
  }

  /** One entry per found path of `m`, in finder order. */
  ghost function ModuleEntries(m: Module, find: Finder, classify: Classifier): seq<LicenseFile>
    requires ModuleSucceeds(m, find, classify)
  {
    var ps := find(m).value;
    seq(|ps|, j requires 0 <= j < |ps| => Entry(m, ps[j], classify(ps[j]).value))
  }

  /** The in-order flattening of modules and their found paths. */
  ghost function Flatten(mods: seq<Module>, find: Finder, classify: Classifier): seq<LicenseFile>
    requires StagesSucceed(mods, find, classify)
  {
    if |mods| == 0 then [] else ModuleEntries(mods[0], find, classify) + Flatten(mods[1..], find, classify)
  }

  /** The number of paths the finder reports over all modules. */
  ghost function TotalPaths(mods: seq<Module>, find: Finder): nat
  {
    if |mods| == 0 then 0
    else (if find(mods[0]).Ok? then |find(mods[0]).value| else 0) + TotalPaths(mods[1..], find)
  }

  /** `e` is the error of the first failing stage while processing `m`. */
  ghost predicate FailsWith(m: Module, find: Finder, classify: Classifier, e: Error)
  {
    if find(m).Err? then e == Wrapped("finding licenses in " + m.path, find(m).error)
    else
      var ps := find(m).value;
      exists j :: 0 <= j < |ps| && (forall q :: 0 <= q < j ==> classify(ps[q]).Ok?) &&
        classify(ps[j]).Err? && e == Wrapped("classifying " + ps[j], classify(ps[j]).error)
  }

  lemma {:induction false} ClassifyPathsSpec(m: Module, paths: seq<string>, classify: Classifier)
    ensures ClassifyPaths(m, paths, classify).Ok? <==> forall p :: p in paths ==> classify(p).Ok?
    ensures ClassifyPaths(m, paths, classify).Err? ==>
      exists j :: 0 <= j < |paths| && (forall q :: 0 <= q < j ==> classify(paths[q]).Ok?) &&
        classify(paths[j]).Err? &&
        ClassifyPaths(m, paths, classify).error == Wrapped("classifying " + paths[j], classify(paths[j]).error)
    decreases |paths|
  {
    if |paths| > 0 {
      ClassifyPathsSpec(m, paths[1..], classify);
      assert forall p :: p in paths <==> p == paths[0] || p in paths[1..];
      var r := ClassifyPaths(m, paths, classify);
      if r.Err? && classify(paths[0]).Ok? {
        var j :| 0 <= j < |paths[1..]| && (forall q :: 0 <= q < j ==> classify(paths[1..][q]).Ok?) &&
          classify(paths[1..][j]).Err? && r.error == Wrapped("classifying " + paths[1..][j], classify(paths[1..][j]).error);
        assert forall q :: 0 <= q < j + 1 ==> classify(paths[q]).Ok? by {
          forall q | 0 <= q < j + 1 ensures classify(paths[q]).Ok? {
            if q > 0 {
              assert paths[q] == paths[1..][q - 1];
            }
          }
        }
        assert paths[j + 1] == paths[1..][j];
      }
    }
  }

  lemma StagesSucceedCons(mods: seq<Module>, find: Finder, classify: Classifier)
    requires |mods| > 0
    ensures StagesSucceed(mods, find, classify) <==>
      ModuleSucceeds(mods[0], find, classify) && StagesSucceed(mods[1..], find, classify)
  {
    assert forall i :: 0 <= i < |mods[1..]| ==> mods[1..][i] == mods[i + 1];
  }

  /** A successful pass over a module's paths builds exactly its entries. */
  lemma ClassifyPathsEntries(m: Module, find: Finder, classify: Classifier)
    requires find(m).Ok? && ClassifyPaths(m, find(m).value, classify).Ok?
    ensures ModuleSucceeds(m, find, classify)
    ensures ClassifyPaths(m, find(m).value, classify).value == ModuleEntries(m, find, classify)
  {
    ClassifyPathsSpec(m, find(m).value, classify);
  }

  /** The pipeline after resolution succeeds exactly when every find and
      every classify succeeds, and then yields the in-order flattening. */
  lemma {:induction false} AggregateModulesSpec(mods: seq<Module>, find: Finder, classify: Classifier)
    ensures AggregateModules(mods, find, classify).Ok? <==> StagesSucceed(mods, find, classify)
    ensures AggregateModules(mods, find, classify).Ok? ==>
      AggregateModules(mods, find, classify).value == Flatten(mods, find, classify)
    decreases |mods|
  {
    if |mods| > 0 {
      var m := mods[0];
      AggregateModulesSpec(mods[1..], find, classify);
      StagesSucceedCons(mods, find, classify);
      if find(m).Ok? {
        ClassifyPathsSpec(m, find(m).value, classify);
        if ClassifyPaths(m, find(m).value, classify).Ok? {
          ClassifyPathsEntries(m, find, classify);
        }
      }
    }
  }

  /** The first failure after resolution, in module-then-path order, is the
      error reported; nothing partial is returned. */
  lemma {:induction false} AggregateModulesFailsFirst(mods: seq<Module>, find: Finder, classify: Classifier)
    requires AggregateModules(mods, find, classify).Err?
    ensures exists k :: (0 <= k < |mods| && StagesSucceed(mods[..k], find, classify) &&
      FailsWith(mods[k], find, classify, AggregateModules(mods, find, classify).error))
    decreases |mods|
  {
    var m := mods[0];
    var e := AggregateModules(mods, find, classify).error;
    if find(m).Err? {
      assert StagesSucceed(mods[..0], find, classify);
    } else {
      ClassifyPathsSpec(m, find(m).value, classify);
      if ClassifyPaths(m, find(m).value, classify).Err? {
        assert StagesSucceed(mods[..0], find, classify);
        assert FailsWith(m, find, classify, e);
      } else {
        AggregateModulesFailsFirst(mods[1..], find, classify);
        var k :| 0 <= k < |mods[1..]| && StagesSucceed(mods[1..][..k], find, classify) &&
          FailsWith(mods[1..][k], find, classify, e);
        assert mods[k + 1] == mods[1..][k];
        var done := mods[..k + 1];
        assert StagesSucceed(done, find, classify) by {
          forall i | 0 <= i < k + 1 ensures ModuleSucceeds(done[i], find, classify) {
            if i > 0 {
              assert done[i] == mods[1..][..k][i - 1];
            }
          }
        }
      }
    }
  }

  /** The whole pipeline: it succeeds exactly when resolution and every later
      stage succeed, and then returns the in-order flattening. */
  lemma AggregateSpec(resolve: Resolver, find: Finder, classify: Classifier, projectDir: string)
    ensures Aggregate(resolve, find, classify, projectDir).Ok? <==>
      resolve(projectDir).Ok? && StagesSucceed(resolve(projectDir).value, find, classify)
    ensures Aggregate(resolve, find, classify, projectDir).Ok? ==>
      Aggregate(resolve, find, classify, projectDir).value == Flatten(resolve(projectDir).value, find, classify)
  {
    if resolve(projectDir).Ok? {
      AggregateModulesSpec(resolve(projectDir).value, find, classify);
    }
  }

  /** A failure after resolution is the first failing find or classify. */
  lemma AggregateFailsFirst(resolve: Resolver, find: Finder, classify: Classifier, projectDir: string)
    requires resolve(projectDir).Ok? && Aggregate(resolve, find, classify, projectDir).Err?
    ensures exists k :: (0 <= k < |resolve(projectDir).value| &&
      StagesSucceed(resolve(projectDir).value[..k], find, classify) &&
      FailsWith(resolve(projectDir).value[k], find, classify, Aggregate(resolve, find, classify, projectDir).error))
  {
    AggregateModulesFailsFirst(resolve(projectDir).value, find, classify);
  }

  /** When resolution fails, the finder and classifier play no part. */
  lemma ResolverFailureSkipsLaterStages(resolve: Resolver, find1: Finder, classify1: Classifier,
                                        find2: Finder, classify2: Classifier, projectDir: string)
    requires resolve(projectDir).Err?
    ensures Aggregate(resolve, find1, classify1, projectDir) == Aggregate(resolve, find2, classify2, projectDir)
  {
  }

  /** The flattening has one entry per found path: nothing is deduplicated. */
  lemma {:induction false} FlattenLength(mods: seq<Module>, find: Finder, classify: Classifier)
    requires StagesSucceed(mods, find, classify)
    ensures |Flatten(mods, find, classify)| == TotalPaths(mods, find)
    decreases |mods|
  {
    if |mods| > 0 {
      assert StagesSucceed(mods[1..], find, classify) by {
        forall i | 0 <= i < |mods[1..]| ensures ModuleSucceeds(mods[1..][i], find, classify) {
          assert mods[1..][i] == mods[i + 1];
        }
      }
      FlattenLength(mods[1..], find, classify);
    }
  }

  /** N modules each with M found paths have N * M found paths in all. */
  lemma {:induction false} UniformPathCount(mods: seq<Module>, find: Finder, perModule: nat)
    requires forall i :: 0 <= i < |mods| ==> find(mods[i]).Ok? && |find(mods[i]).value| == perModule
    ensures TotalPaths(mods, find) == |mods| * perModule
    decreases |mods|
  {
    if |mods| > 0 {
      assert forall i :: 0 <= i < |mods[1..]| ==> mods[1..][i] == mods[i + 1];
      UniformPathCount(mods[1..], find, perModule);
    }
  }

  /** When every stage succeeds and each of the N resolved modules has M
      license files, the aggregation succeeds with exactly N * M entries. */
  lemma UniformModulesGiveProduct(resolve: Resolver, find: Finder, classify: Classifier, projectDir: string, perModule: nat)
    requires resolve(projectDir).Ok? && StagesSucceed(resolve(projectDir).value, find, classify)
    requires forall i :: 0 <= i < |resolve(projectDir).value| ==>
      |find(resolve(projectDir).value[i]).value| == perModule
    ensures Aggregate(resolve, find, classify, projectDir).Ok?
    ensures |Aggregate(resolve, find, classify, projectDir).value| == |resolve(projectDir).value| * perModule
  {
    var mods := resolve(projectDir).value;
    AggregateSpec(resolve, find, classify, projectDir);
    FlattenLength(mods, find, classify);
    UniformPathCount(mods, find, perModule);
  }
}

=== FILE: classifier.dfy ===
/** The license classifier's post-processing of the matcher's output: keep
    license matches only, drop repeated names, attach the taxonomy variant. */
module Classifier {
  import opened Results
  import opened Taxonomy
  import opened Domain

  /** One candidate reported by the external matcher. */
  datatype Match = Match(name: string, matchType: string)

  /** `m` is a license match (not, say, a copyright fragment) naming `name`. */
  predicate IsLicenseMatch(m: Match, name: string)
  {
    m.matchType == "License" && m.name == name
  }

  /** Position of the first license match naming `name`, or |ms| when there is none. */
  function FirstLicenseIndex(ms: seq<Match>, name: string): (i: nat)
    ensures i <= |ms|
    ensures i < |ms| ==> IsLicenseMatch(ms[i], name)
    ensures forall j :: 0 <= j < i ==> !IsLicenseMatch(ms[j], name)
    decreases |ms|
  {
    if |ms| == 0 then 0
    else if IsLicenseMatch(ms[0], name) then 0
    else 1 + FirstLicenseIndex(ms[1..], name)
  }

  /** Extending the scanned prefix by one match adds exactly that match's name. */
  lemma FirstLicenseIndexStep(ms: seq<Match>, n: string, i: nat)
    requires i < |ms|
    ensures FirstLicenseIndex(ms, n) < i + 1 <==> FirstLicenseIndex(ms, n) < i || IsLicenseMatch(ms[i], n)
  {
  }

  /** Every license carries the taxonomy variant of its own name. */
  predicate Typed(ls: seq<License>)
  {
    forall k :: 0 <= k < |ls| ==> ls[k].licenseType == LicenseTypeFromSpdx(ls[k].name)
  }

  /** Names appear in strictly increasing order of their first license match. */
  predicate InFirstMatchOrder(ms: seq<Match>, ls: seq<License>)
  {
    forall k1, k2 :: 0 <= k1 < k2 < |ls| ==>
      FirstLicenseIndex(ms, ls[k1].name) < FirstLicenseIndex(ms, ls[k2].name)
  }

  /** After scanning `ms[..i]`: `seen` holds exactly the names first matched
      there, and `ls` lists each of them once. */
  ghost predicate FilterInvariant(ms: seq<Match>, i: nat, seen: set<string>, ls: seq<License>)
  {
    && i <= |ms|
    && (forall n :: n in seen <==> FirstLicenseIndex(ms, n) < i)
    && (forall k :: 0 <= k < |ls| ==> ls[k].name in seen)
    && (forall n :: n in seen ==> exists k :: 0 <= k < |ls| && ls[k].name == n)
    && Typed(ls)
    && InFirstMatchOrder(ms, ls)
  }

  /** Scanning one more match adds at most that match's name to the names
      first matched so far. */
  lemma ScanStep(ms: seq<Match>, i: nat)
    requires i < |ms|
    ensures forall n :: FirstLicenseIndex(ms, n) < i + 1 <==> FirstLicenseIndex(ms, n) < i || IsLicenseMatch(ms[i], n)
  {
    forall n ensures FirstLicenseIndex(ms, n) < i + 1 <==> FirstLicenseIndex(ms, n) < i || IsLicenseMatch(ms[i], n) {
      FirstLicenseIndexStep(ms, n, i);
    }
  }

  /** A match that is not a license, or names a license already seen, is skipped. */
  lemma FilterSkip(ms: seq<Match>, i: nat, seen: set<string>, ls: seq<License>)
    requires i < |ms| && FilterInvariant(ms, i, seen, ls)
    requires !(ms[i].matchType == "License" && ms[i].name !in seen)
    ensures FilterInvariant(ms, i + 1, seen, ls)
  {
    ScanStep(ms, i);
  }

  /** Appending a license first matched at `i` keeps the order. */
  lemma AppendInOrder(ms: seq<Match>, i: nat, ls: seq<License>, l: License)
    requires InFirstMatchOrder(ms, ls)
    requires forall k :: 0 <= k < |ls| ==> FirstLicenseIndex(ms, ls[k].name) < i
    requires FirstLicenseIndex(ms, l.name) == i
    ensures InFirstMatchOrder(ms, ls + [l])
  {
    var ls' := ls + [l];
    assert forall k :: 0 <= k < |ls| ==> ls'[k] == ls[k];
  }

  /** Every seen name is still listed after an append. */
  lemma AppendKeepsListed(ls: seq<License>, seen: set<string>, l: License)
    requires forall n :: n in seen ==> exists k :: 0 <= k < |ls| && ls[k].name == n
    ensures forall n :: n in seen + {l.name} ==> exists k :: 0 <= k < |ls + [l]| && (ls + [l])[k].name == n
  {
    var ls' := ls + [l];
    forall n | n in seen + {l.name} ensures exists k :: 0 <= k < |ls'| && ls'[k].name == n {
      if n == l.name {
        assert ls'[|ls|].name == n;
      } else {
        var k :| 0 <= k < |ls| && ls[k].name == n;
        assert ls'[k].name == n;
      }
    }
  }

  /** A license match whose name was not seen before is kept. */
  lemma FilterKeep(ms: seq<Match>, i: nat, seen: set<string>, ls: seq<License>)
    requires i < |ms| && FilterInvariant(ms, i, seen, ls)
    requires ms[i].matchType == "License" && ms[i].name !in seen
    ensures FilterInvariant(ms, i + 1, seen + {ms[i].name}, ls + [License(ms[i].name, LicenseTypeFromSpdx(ms[i].name))])
  {
    var m := ms[i];
    var l := License(m.name, LicenseTypeFromSpdx(m.name));
    var ls' := ls + [l];
    ScanStep(ms, i);
    assert FirstLicenseIndex(ms, m.name) == i;
    AppendInOrder(ms, i, ls, l);
    AppendKeepsListed(ls, seen, l);
    assert forall k :: 0 <= k < |ls| ==> ls'[k] == ls[k];
    assert Typed(ls');
  }

  /** The names of the license matches in `ms`. */
  function LicenseMatchNames(ms: seq<Match>): set<string>
  {
    set i | 0 <= i < |ms| && ms[i].matchType == "License" :: ms[i].name
  }

  /** The names of the licenses in `ls`. */
  function NamesOf(ls: seq<License>): set<string>
  {
    set k | 0 <= k < |ls| :: ls[k].name
  }

  /** A name has a first license match inside `ms` exactly when it is a license-match name. */
  lemma FirstMatchNames(ms: seq<Match>, n: string)
    ensures FirstLicenseIndex(ms, n) < |ms| <==> n in LicenseMatchNames(ms)
  {
    var j := FirstLicenseIndex(ms, n);
    if j < |ms| {
      assert IsLicenseMatch(ms[j], n);
    }
    if n in LicenseMatchNames(ms) {
      var i :| 0 <= i < |ms| && ms[i].matchType == "License" && ms[i].name == n;
      assert IsLicenseMatch(ms[i], n);
    }
  }

  /** The names kept are the names seen. */
  lemma NamesAreSeen(seen: set<string>, ls: seq<License>)
    requires forall k :: 0 <= k < |ls| ==> ls[k].name in seen
    requires forall n :: n in seen ==> exists k :: 0 <= k < |ls| && ls[k].name == n
    ensures NamesOf(ls) == seen
  {
  }

  /** Once every match is scanned, the seen names are the license-match names. */
  lemma SeenAreMatchNames(ms: seq<Match>, seen: set<string>)
    requires forall n :: n in seen <==> FirstLicenseIndex(ms, n) < |ms|
    ensures seen == LicenseMatchNames(ms)
  {
    forall n ensures n in seen <==> n in LicenseMatchNames(ms) {
      FirstMatchNames(ms, n);
    }
  }

  /** The filter applied to the matcher's results: one License per distinct
      license-match name, in order of first appearance, typed by the taxonomy. */
  method FilterMatches(ms: seq<Match>) returns (licenses: seq<License>)
    ensures forall k :: 0 <= k < |licenses| ==> licenses[k].licenseType == LicenseTypeFromSpdx(licenses[k].name)
    ensures NamesOf(licenses) == LicenseMatchNames(ms)
    ensures forall k1, k2 :: 0 <= k1 < k2 < |licenses| ==>
      FirstLicenseIndex(ms, licenses[k1].name) < FirstLicenseIndex(ms, licenses[k2].name)
    ensures forall k1, k2 :: 0 <= k1 < k2 < |licenses| ==> licenses[k1].name != licenses[k2].name
  {
    var seen: set<string> := {};
    licenses := [];
    var i := 0;
    while i < |ms|
      invariant FilterInvariant(ms, i, seen, licenses)
    {
      var m := ms[i];
      if m.matchType == "License" && m.name !in seen {
        FilterKeep(ms, i, seen, licenses);
        seen := seen + {m.name};
        licenses := licenses + [License(m.name, LicenseTypeFromSpdx(m.name))];
      } else {
        FilterSkip(ms, i, seen, licenses);
      }
      i := i + 1;
    }
    NamesAreSeen(seen, licenses);
    SeenAreMatchNames(ms, seen);
  }

  /** Classify one file: a failed read is an error; otherwise the matcher's
      results, given as `matched`, are filtered.  `matched` is None when the
      file cannot be read. */
  method Classify(path: string, matched: Option<seq<Match>>) returns (r: Result<seq<License>>)
    ensures matched.None? ==> r == Err(Wrapped("reading license file", Io("read", path)))
    ensures matched.Some? ==> r.Ok? && NamesOf(r.value) == LicenseMatchNames(matched.value)
    ensures matched.Some? ==> forall k :: 0 <= k < |r.value| ==>
      r.value[k].licenseType == LicenseTypeFromSpdx(r.value[k].name)
    ensures matched.Some? ==> forall k1, k2 :: 0 <= k1 < k2 < |r.value| ==>
      FirstLicenseIndex(matched.value, r.value[k1].name) < FirstLicenseIndex(matched.value, r.value[k2].name)
    ensures matched.Some? ==> forall k1, k2 :: 0 <= k1 < k2 < |r.value| ==> r.value[k1].name != r.value[k2].name
  {
    if matched.None? {
      return Err(Wrapped("reading license file", Io("read", path)));
    }
    var licenses := FilterMatches(matched.value);
    return Ok(licenses);
  }
}

=== FILE: domain.dfy ===
/** The records that flow through the pipeline. */
module Domain {
  import opened Taxonomy

  /** A resolved dependency; `dir` is "" when its source is not on disk. */
  datatype Module = Module(path: string, version: string, dir: string)

  /** A classified license: the matched identifier and its taxonomy variant. */
  datatype License = License(name: string, licenseType: LicenseType)

  /** One discovered license file with its owning module and classification. */
  datatype LicenseFile = LicenseFile(path: string, relPath: string, mod: Module, licenses: seq<License>)
}

=== FILE: finder.dfy ===
/** The recursive license finder: a pre-order walk over a module's directory
    tree that prunes `vendor` directories and keeps files whose name passes
    the license file-name test. */
module Finder {
  import opened Results
  import opened Paths
  import opened FilePattern
  import opened Domain

  /** A directory snapshot; children are listed in the order the walk visits them. */
  datatype Entry =
    | File(name: string)
    | Dir(name: string, children: seq<Entry>)
    | UnreadableDir(name: string)   // a directory whose listing fails

  /** A walk failure: the cancelled context, or a directory below `path`
      that could not be listed. */
  predicate WalkError(path: string, e: Error)
  {
    e.Canceled? || (e.Io? && e.op == "readdir" && Under(path, e.path))
  }

  /** The walk below `path`, the location of `e`.  `cancelled` is the state of
      the context, checked at every visit before anything else. */
  function Walk(path: string, e: Entry, cancelled: bool): (r: Result<seq<string>>)
    ensures cancelled ==> r == Err(Canceled)
    ensures r.Ok? ==> forall k :: 0 <= k < |r.value| ==> Under(path, r.value[k])
    ensures r.Err? ==> WalkError(path, r.error)
    decreases e, 1
  {
    if cancelled then Err(Canceled)
    else match e
      case File(name) => Ok(if IsLicenseFileName(name) then [path] else [])
      case UnreadableDir(name) => if name == "vendor" then Ok([]) else Err(Io("readdir", path))
      case Dir(name, children) => if name == "vendor" then Ok([]) else WalkChildren(path, e, 0, cancelled)
  }

  /** The walk of the children of `dir` from position `i` on, stopping at the first error. */
  function WalkChildren(path: string, dir: Entry, i: nat, cancelled: bool): (r: Result<seq<string>>)
    requires dir.Dir? && i <= |dir.children|
    ensures r.Ok? ==> forall k :: 0 <= k < |r.value| ==> Under(path, r.value[k])
    ensures r.Err? ==> WalkError(path, r.error)
    decreases dir, 0, |dir.children| - i
  {
    if i == |dir.children| then Ok([])
    else
      var c := dir.children[i];
      var sub := Join(path, c.name);
      var first := Walk(sub, c, cancelled);
      if first.Err? then
        if first.error.Io? then (UnderJoin(path, c.name, first.error.path); first) else first
      else
        var rest := WalkChildren(path, dir, i + 1, cancelled);
        if rest.Err? then rest
        else
          UnderJoinAll(path, c.name, first.value);
          Ok(first.value + rest.value)
  }

  /** UnderJoin for every path of a list. */
  lemma UnderJoinAll(dir: string, name: string, ps: seq<string>)
    requires forall k :: 0 <= k < |ps| ==> Under(Join(dir, name), ps[k])
    ensures forall k :: 0 <= k < |ps| ==> Under(dir, ps[k])
  {
    forall k | 0 <= k < |ps| ensures Under(dir, ps[k]) {
      UnderJoin(dir, name, ps[k]);
    }
  }

  /** The module's root as the walk sees it: WalkDir names the root entry
      after the last element of the directory path. */
  function AtRoot(dir: string, e: Entry): (r: Entry)
    ensures r.name == Base(dir)
    ensures r.File? == e.File? && r.Dir? == e.Dir?
  {
    e.(name := Base(dir))
  }

  /** The finder for one module.  `root` is what lies at `m.dir` (None when
      it cannot be stat'ed); a module without a directory contributes nothing. */
  function Find(m: Module, root: Option<Entry>, cancelled: bool): (r: Result<seq<string>>)
    ensures m.dir == "" ==> r == Ok([])
    ensures m.dir != "" && cancelled ==> r.Err?
    ensures r.Ok? ==> forall k :: 0 <= k < |r.value| ==> Under(m.dir, r.value[k])
    ensures r.Err? ==> r.error.Wrapped? && r.error.context == "walking module " + m.path
  {
    if m.dir == "" then Ok([])
    else
      var walked := match root
        case None => Err(Io("lstat", m.dir))
        case Some(e) => Walk(m.dir, AtRoot(m.dir, e), cancelled);
      if walked.Err? then Err(Wrapped("walking module " + m.path, walked.error)) else walked
  }

  /** One visit of a walk that prunes nothing: the entry, where it lies, and
      whether it is or lies below a directory named `vendor`. */
  datatype Visit = Visit(path: string, entry: Entry, pruned: bool)

  /** Every entry of the tree in pre-order, vendor subtrees included. */
  ghost function Preorder(path: string, e: Entry, pruned: bool): seq<Visit>
    decreases e, 1
  {
    var here := pruned || (!e.File? && e.name == "vendor");
    [Visit(path, e, here)] + (if e.Dir? then PreorderChildren(path, e, 0, here) else [])
  }

  ghost function PreorderChildren(path: string, dir: Entry, i: nat, pruned: bool): seq<Visit>
    requires dir.Dir? && i <= |dir.children|
    decreases dir, 0, |dir.children| - i
  {
    if i == |dir.children| then []
    else
      var c := dir.children[i];
      Preorder(Join(path, c.name), c, pruned) + PreorderChildren(path, dir, i + 1, pruned)
  }

  /** A visit the finder must report: an unpruned file with a license name. */
  ghost predicate Reported(v: Visit)
  {
    !v.pruned && v.entry.File? && IsLicenseFileName(v.entry.name)
  }

  /** A visit that makes the walk fail: an unpruned unreadable directory. */
  ghost predicate Blocking(v: Visit)
  {
    !v.pruned && v.entry.UnreadableDir?
  }

  ghost predicate Unblocked(vs: seq<Visit>)
  {
    forall k :: 0 <= k < |vs| ==> !Blocking(vs[k])
  }

  /** The paths of the reported visits, in visit order. */
  ghost function Reports(vs: seq<Visit>): seq<string>
  {
    if |vs| == 0 then [] else (if Reported(vs[0]) then [vs[0].path] else []) + Reports(vs[1..])
  }

  lemma {:induction false} ReportsAppend(a: seq<Visit>, b: seq<Visit>)
    ensures Reports(a + b) == Reports(a) + Reports(b)
  {
    if |a| == 0 {
      assert a + b == b;
    } else {
      assert (a + b)[0] == a[0];
      assert (a + b)[1..] == a[1..] + b;
      ReportsAppend(a[1..], b);
    }
  }

  /** A path is reported exactly when some visit reports it. */
  lemma {:induction false} ReportsMembers(vs: seq<Visit>, p: string)
    ensures p in Reports(vs) <==> exists k :: 0 <= k < |vs| && Reported(vs[k]) && vs[k].path == p
  {
    if |vs| > 0 {
      ReportsMembers(vs[1..], p);
      if p in Reports(vs[1..]) {
        var k :| 0 <= k < |vs[1..]| && Reported(vs[1..][k]) && vs[1..][k].path == p;
        assert vs[k + 1] == vs[1..][k];
      }
      if exists k :: 0 <= k < |vs| && Reported(vs[k]) && vs[k].path == p {
        var k :| 0 <= k < |vs| && Reported(vs[k]) && vs[k].path == p;
        if k > 0 {
          assert vs[1..][k - 1] == vs[k];
        }
      }
    }
  }

  /** Everything below a pruned entry is pruned. */
  lemma {:induction false} PrunedStaysPruned(path: string, e: Entry)
    ensures forall k :: 0 <= k < |Preorder(path, e, true)| ==> Preorder(path, e, true)[k].pruned
    decreases e, 1
  {
    if e.Dir? {
      PrunedChildrenStayPruned(path, e, 0);
    }
  }

  lemma {:induction false} PrunedChildrenStayPruned(path: string, dir: Entry, i: nat)
    requires dir.Dir? && i <= |dir.children|
    ensures forall k :: 0 <= k < |PreorderChildren(path, dir, i, true)| ==> PreorderChildren(path, dir, i, true)[k].pruned
    decreases dir, 0, |dir.children| - i
  {
    if i < |dir.children| {
      var c := dir.children[i];
      PrunedStaysPruned(Join(path, c.name), c);
      PrunedChildrenStayPruned(path, dir, i + 1);
    }
  }

  /** A sequence of pruned visits reports nothing. */
  lemma {:induction false} PrunedReportsNothing(vs: seq<Visit>)
    requires forall k :: 0 <= k < |vs| ==> vs[k].pruned
    ensures Reports(vs) == []
  {
    if |vs| > 0 {
      PrunedReportsNothing(vs[1..]);
    }
  }

  /** The pruning walk agrees with the full pre-order: it succeeds exactly
      when no unpruned directory is unreadable, and then reports the
      unpruned license files in visit order. */
  lemma {:induction false} WalkIsFilteredPreorder(path: string, e: Entry)
    ensures Walk(path, e, false).Ok? <==> Unblocked(Preorder(path, e, false))
    ensures Walk(path, e, false).Ok? ==> Walk(path, e, false).value == Reports(Preorder(path, e, false))
    decreases e, 1
  {
    var vs := Preorder(path, e, false);
    if !e.File? && e.name == "vendor" {
      PrunedStaysPruned(path, e);
      assert vs == Preorder(path, e, true);
      PrunedReportsNothing(vs);
    } else if e.Dir? {
      var rest := PreorderChildren(path, e, 0, false);
      assert vs == [vs[0]] + rest;
      assert vs[1..] == rest;
      WalkChildrenIsFilteredPreorder(path, e, 0);
      assert Unblocked(vs) <==> Unblocked(rest) by {
        forall k | 0 <= k < |rest| ensures vs[k + 1] == rest[k] { }
      }
    }
  }

  lemma {:induction false} WalkChildrenIsFilteredPreorder(path: string, dir: Entry, i: nat)
    requires dir.Dir? && i <= |dir.children|
    ensures WalkChildren(path, dir, i, false).Ok? <==> Unblocked(PreorderChildren(path, dir, i, false))
    ensures WalkChildren(path, dir, i, false).Ok? ==>
      WalkChildren(path, dir, i, false).value == Reports(PreorderChildren(path, dir, i, false))
    decreases dir, 0, |dir.children| - i
  {
    if i < |dir.children| {
      var c := dir.children[i];
      var a := Preorder(Join(path, c.name), c, false);
      var b := PreorderChildren(path, dir, i + 1, false);
      WalkIsFilteredPreorder(Join(path, c.name), c);
      WalkChildrenIsFilteredPreorder(path, dir, i + 1);
      ReportsAppend(a, b);
      assert Unblocked(a + b) <==> Unblocked(a) && Unblocked(b) by {
        forall k | 0 <= k < |a| ensures (a + b)[k] == a[k] { }
        forall k | 0 <= k < |b| ensures (a + b)[|a| + k] == b[k] { }
      }
    }
  }

  /** On an uncancelled walk of an existing directory, the finder succeeds
      exactly when no unpruned directory is unreadable, and then returns
      precisely the unpruned license files, in walk order. */
  lemma FindReportsUnprunedLicenseFiles(m: Module, e: Entry, p: string)
    requires m.dir != ""
    ensures Find(m, Some(e), false).Ok? <==> Unblocked(Preorder(m.dir, AtRoot(m.dir, e), false))
    ensures Find(m, Some(e), false).Ok? ==> Find(m, Some(e), false).value == Reports(Preorder(m.dir, AtRoot(m.dir, e), false))
    ensures Find(m, Some(e), false).Ok? ==>
      (p in Find(m, Some(e), false).value <==>
       exists k :: 0 <= k < |Preorder(m.dir, AtRoot(m.dir, e), false)| &&
         Reported(Preorder(m.dir, AtRoot(m.dir, e), false)[k]) && Preorder(m.dir, AtRoot(m.dir, e), false)[k].path == p)
  {
    WalkIsFilteredPreorder(m.dir, AtRoot(m.dir, e));
    ReportsMembers(Preorder(m.dir, AtRoot(m.dir, e), false), p);
  }

  /** Every path the finder returns lies under the module directory, so the
      aggregator's relative path for it is exact: "." for the directory
      itself, and otherwise a path that joins back onto the directory. */
  lemma FoundPathsRelExact(m: Module, root: Option<Entry>, cancelled: bool, k: int)
    requires Find(m, root, cancelled).Ok? && 0 <= k < |Find(m, root, cancelled).value|
    ensures Find(m, root, cancelled).value[k] == m.dir ==> Rel(m.dir, Find(m, root, cancelled).value[k]) == "."
    ensures Find(m, root, cancelled).value[k] != m.dir ==>
      Join(m.dir, Rel(m.dir, Find(m, root, cancelled).value[k])) == Find(m, root, cancelled).value[k]
  {
    var p := Find(m, root, cancelled).value[k];
    if p != m.dir {
      RelUnder(m.dir, p);
    }
  }

  /** A module whose directory is itself named `vendor` is skipped whole. */
  lemma FindSkipsVendorRoot(m: Module, e: Entry)
    requires m.dir != "" && Base(m.dir) == "vendor"
    ensures Find(m, Some(e), false) == Ok([])
  {
    var root := AtRoot(m.dir, e);
    assert root.name == "vendor";
    if root.File? {
      RejectsVendor();
    }
    assert Walk(m.dir, root, false) == Ok([]);
  }

  /** A cancelled context aborts the walk with the cancellation error and no paths. */
  lemma FindCancelled(m: Module, root: Option<Entry>)
    requires m.dir != "" && root.Some?
    ensures Find(m, root, true) == Err(Wrapped("walking module " + m.path, Canceled))
  {
  }
}

=== FILE: labels.dfy ===
/** The license label of the alternate report writer: like the report
    command's label, but it names licenses by their taxonomy variant and
    marks unclassified NOTICE and COPYRIGHT files as such. */
module CliLabels {
  import opened Text
  import opened Paths
  import opened Taxonomy
  import opened Domain
  import Report

  const NoticeLabel: string := "(NOTICE file)"

  /** The relative path, extension removed and upper-cased, mentions NOTICE or
      COPYRIGHT; directories count, not just the file's own name. */
  predicate MentionsNotice(relPath: string)
  {
    var stem := Upper(TrimExt(relPath));
    Contains(stem, "NOTICE") || Contains(stem, "COPYRIGHT")
  }

  /** The SPDX identifiers of the licenses' variants, in order. */
  function Spdxs(ls: seq<License>): seq<string>
  {
    seq(|ls|, k requires 0 <= k < |ls| => ls[k].licenseType.Spdx())
  }

  /** The label of a file: "(NOTICE file)" or "Unknown" when no license was
      recognised, else the variants' identifiers joined by ", ". */
  function LicenseNames(lf: LicenseFile): (shown: string)
    ensures |lf.licenses| == 0 ==> (shown == NoticeLabel <==> MentionsNotice(lf.relPath))
    ensures |lf.licenses| == 0 ==> shown == NoticeLabel || shown == "Unknown"
  {
    if |lf.licenses| == 0 then
      if MentionsNotice(lf.relPath) then NoticeLabel else "Unknown"
    else
      Text.Join(Spdxs(lf.licenses), ListSep)
  }

  /** With licenses present, the label lists every variant's identifier in
      order, whatever the file's path. */
  lemma LicenseNamesListsSpdx(lf: LicenseFile, otherRelPath: string)
    requires |lf.licenses| > 0
    requires forall k :: 0 <= k < |lf.licenses| ==> NoComma(lf.licenses[k].licenseType.Spdx())
    ensures SplitList(LicenseNames(lf)) == Spdxs(lf.licenses)
    ensures LicenseNames(lf.(relPath := otherRelPath)) == LicenseNames(lf)
  {
    SplitJoin(Spdxs(lf.licenses));
  }

  /** When every variant was looked up from its license's name, the two
      labels differ exactly for unclassified files whose path mentions
      NOTICE or COPYRIGHT. */
  lemma AgreesWithReportLabel(lf: LicenseFile)
    requires forall k :: 0 <= k < |lf.licenses| ==> lf.licenses[k].licenseType == LicenseTypeFromSpdx(lf.licenses[k].name)
    ensures LicenseNames(lf) != Report.LicenseNames(lf) <==> |lf.licenses| == 0 && MentionsNotice(lf.relPath)
  {
    if |lf.licenses| > 0 {
      assert Spdxs(lf.licenses) == Report.Names(lf.licenses);
    }
  }

  /** A NOTICE file in a subdirectory is marked. */
  lemma NoticeInSubdirectory()
    ensures MentionsNotice("docs/NOTICE.md")
  {
    assert ExtBefore("docs/NOTICE.md", 12) == ".";
    assert ExtBefore("docs/NOTICE.md", 13) == ".m";
    assert Ext("docs/NOTICE.md") == ".md";
    assert TrimExt("docs/NOTICE.md") == "docs/NOTICE";
    assert OccursAt(Upper("docs/NOTICE"), "NOTICE", 5);
  }

  /** The stem of "copyright.txt". */
  lemma CopyrightStem()
    ensures TrimExt("copyright.txt") == "copyright"
  {
    assert ExtBefore("copyright.txt", 10) == ".";
    assert ExtBefore("copyright.txt", 11) == ".t";
    assert ExtBefore("copyright.txt", 12) == ".tx";
    assert Ext("copyright.txt") == ".txt";
  }

  /** A lower-case copyright file with an extension is marked too. */
  lemma CopyrightIsMarked()
    ensures MentionsNotice("copyright.txt")
  {
    CopyrightStem();
    UpperCharwise("copyright", "COPYRIGHT");
    assert OccursAt("COPYRIGHT", "COPYRIGHT", 0);
  }

  /** The test is on the whole path: an unclassified LICENSE under a
      directory called `notices` is marked as a NOTICE file as well. */
  lemma DirectoryNameIsMarked()
    ensures MentionsNotice("notices/LICENSE")
  {
    assert Ext("notices/LICENSE") == "";
    assert TrimExt("notices/LICENSE") == "notices/LICENSE";
    UpperCharwise("notices/LICENSE", "NOTICES/LICENSE");
    assert "NOTICES/LICENSE"[0..6] == "NOTICE";
    assert OccursAt("NOTICES/LICENSE", "NOTICE", 0);
  }

  /** An unclassified LICENSE file is labelled "Unknown". */
  lemma LicenseIsUnknown()
    ensures !MentionsNotice("LICENSE")
  {
    assert Ext("LICENSE") == "";
    assert TrimExt("LICENSE") == "LICENSE";
    UpperCharwise("LICENSE", "LICENSE");
    assert "LICENSE"[0..6][0] != "NOTICE"[0];
    assert "LICENSE"[1..7][0] != "NOTICE"[0];
  }
}

=== FILE: paths.dfy ===
/** The `path/filepath` operations the pipeline relies on, for slash-separated
    paths that are already clean. */
module Paths {

  /** filepath.Join of a directory and a non-empty name below it; an empty
      directory is dropped, as Join drops empty elements. */
  function Join(dir: string, name: string): string
  {
    if dir == "" then name else dir + "/" + name
  }

  /** filepath.Rel with its error ignored, as the aggregator uses it, for a
      `target` at or under `base`: the path of `target` relative to `base`.
      An empty base is the current directory: a relative target is returned
      as it is, and an absolute one is an error, for which "" is kept.  A
      target outside a non-empty base also gives "" here, where filepath.Rel
      would give a path climbing out with "../"; the finder never produces
      such a target (see `RelUnder`). */
  function Rel(base: string, target: string): (r: string)
    ensures target == base ==> r == "."
    ensures r != "" && r != "." ==> Join(base, r) == target
    ensures base == "" && |target| > 0 && target[0] == '/' ==> r == ""
  {
    if target == base then "."
    else if base == "" then (if target[0] == '/' then "" else target)
    else if |base| + 1 <= |target| && target[..|base| + 1] == base + "/" then target[|base| + 1..]
    else ""
  }

  /** Rel undoes Join: a path built under `dir` is found again relative to it
      (for an empty `dir`, as long as the name is not absolute). */
  lemma RelOfJoin(dir: string, sub: string)
    requires sub != ""
    requires dir == "" ==> sub[0] != '/'
    ensures Rel(dir, Join(dir, sub)) == sub
  {
    if dir != "" {
      var target := Join(dir, sub);
      assert |target| == |dir| + 1 + |sub|;
      assert target[..|dir| + 1] == dir + "/";
      assert target[|dir| + 1..] == sub;
    }
  }

  /** `p` lies at or below directory `dir` (anything lies below the empty,
      current, directory). */
  predicate Under(dir: string, p: string)
  {
    dir == "" || p == dir || (|dir| + 1 <= |p| && p[..|dir| + 1] == dir + "/")
  }

  /** On every path at or under a non-empty base, Rel is exact: it is what
      follows the base, and joined back onto the base it gives the path. */
  lemma RelUnder(base: string, target: string)
    requires base != "" && Under(base, target) && target != base
    ensures Rel(base, target) == target[|base| + 1..]
    ensures Join(base, Rel(base, target)) == target
  {
    assert target[..|base| + 1] == base + "/";
    assert target == target[..|base| + 1] + target[|base| + 1..];
  }

  /** What lies below a subdirectory lies below the directory. */
  lemma UnderJoin(dir: string, name: string, p: string)
    requires Under(Join(dir, name), p)
    ensures Under(dir, p)
  {
    if dir != "" {
      var sub := Join(dir, name);
      assert sub[..|dir| + 1] == dir + "/";
      if p != sub {
        assert p[..|sub| + 1][..|dir| + 1] == p[..|dir| + 1];
      }
    }
  }

  /** The path without its trailing slashes. */
  function TrimTrailingSlashes(p: string): (t: string)
    ensures |t| <= |p| && t == p[..|t|]
    ensures t == "" || t[|t| - 1] != '/'
    ensures forall k :: |t| <= k < |p| ==> p[k] == '/'
  {
    if |p| > 0 && p[|p| - 1] == '/' then TrimTrailingSlashes(p[..|p| - 1]) else p
  }

  /** The part of `t` after its last slash. */
  function AfterLastSlash(t: string): (e: string)
    ensures |e| <= |t| && e == t[|t| - |e|..]
    ensures forall k :: 0 <= k < |e| ==> e[k] != '/'
    ensures |e| < |t| ==> t[|t| - |e| - 1] == '/'
  {
    if |t| == 0 || t[|t| - 1] == '/' then "" else AfterLastSlash(t[..|t| - 1]) + [t[|t| - 1]]
  }

  /** filepath.Base: the last element of the path, trailing slashes removed;
      "." for the empty path and "/" for a path of slashes only. */
  function Base(p: string): (b: string)
    ensures b != ""
    ensures p == "" ==> b == "."
    ensures p != "" && b != "/" ==> forall k :: 0 <= k < |b| ==> b[k] != '/'
  {
    if p == "" then "."
    else
      var e := AfterLastSlash(TrimTrailingSlashes(p));
      if e == "" then "/" else e
  }

  /** After a slash (or at the start), a slash-free name is the last element. */
  lemma {:induction false} AfterLastSlashOf(pre: string, name: string)
    requires pre == "" || pre[|pre| - 1] == '/'
    requires forall k :: 0 <= k < |name| ==> name[k] != '/'
    ensures AfterLastSlash(pre + name) == name
    decreases |name|
  {
    if |name| > 0 {
      var init := name[..|name| - 1];
      assert (pre + name)[..|pre + name| - 1] == pre + init;
      AfterLastSlashOf(pre, init);
      assert init + [name[|name| - 1]] == name;
    } else {
      assert pre + name == pre;
    }
  }

  /** A slash-free name after a slash, or alone, is its path's Base. */
  lemma BaseAfterSlash(pre: string, name: string)
    requires pre == "" || pre[|pre| - 1] == '/'
    requires name != ""
    requires forall k :: 0 <= k < |name| ==> name[k] != '/'
    ensures Base(pre + name) == name
  {
    var p := pre + name;
    assert p[|p| - 1] == name[|name| - 1];
    assert TrimTrailingSlashes(p) == p;
    AfterLastSlashOf(pre, name);
  }

  /** Base undoes Join: the last element of a joined path is the name joined. */
  lemma BaseOfJoin(dir: string, name: string)
    requires name != ""
    requires forall k :: 0 <= k < |name| ==> name[k] != '/'
    ensures Base(Join(dir, name)) == name
  {
    var pre := if dir == "" then "" else dir + "/";
    assert Join(dir, name) == pre + name;
    BaseAfterSlash(pre, name);
  }

  /** filepath.Ext of the prefix `path[..i]`: the suffix from the last
      '.' of the final element, or "" when that element has no '.'. */
  function ExtBefore(path: string, i: nat): (ext: string)
    requires i <= |path|
    ensures ext != "" ==> |ext| <= i && ext == path[i - |ext|..i] && ext[0] == '.'
    ensures forall k :: 1 <= k < |ext| ==> ext[k] != '.' && ext[k] != '/'
    ensures ext == "" ==> forall k :: 0 <= k < i && path[k] == '.' ==> exists j :: k < j < i && path[j] == '/'
    decreases i
  {
    if i == 0 then ""
    else if path[i - 1] == '/' then ""
    else if path[i - 1] == '.' then path[i - 1..i]
    else
      var ext := ExtBefore(path, i - 1);
      if ext == "" then "" else ext + [path[i - 1]]
  }

  /** filepath.Ext: the extension of the final element of `path`, dot included. */
  function Ext(path: string): (ext: string)
    ensures |ext| <= |path| && ext == path[|path| - |ext|..]
    ensures ext != "" ==> ext[0] == '.'
    ensures forall k :: 1 <= k < |ext| ==> ext[k] != '.' && ext[k] != '/'
    ensures ext == "" ==> forall k :: 0 <= k < |path| && path[k] == '.' ==> exists j :: k < j < |path| && path[j] == '/'
  {
    ExtBefore(path, |path|)
  }

  /** strings.TrimSuffix(path, filepath.Ext(path)): the path without its extension. */
  function TrimExt(path: string): (stem: string)
    ensures path == stem + Ext(path)
  {
    path[..|path| - |Ext(path)|]
  }
}

=== FILE: pattern.dfy ===
/** The file-name test of the license finder: the regular expression
    `(?i)^((UN)?LICEN[SC]E|COPYING|NOTICE|COPYRIGHT)(\.[a-z]+)?$`
    written out as a string predicate, with ASCII case folding. */
module FilePattern {
  import opened Text

  /** The seven base names the alternation `(UN)?LICEN[SC]E|COPYING|NOTICE|COPYRIGHT` spells out. */
  const BaseNames: set<string> := {"LICENSE", "LICENCE", "UNLICENSE", "UNLICENCE", "COPYING", "NOTICE", "COPYRIGHT"}

  /** `(\.[a-z]+)` under `(?i)`: a dot followed by one or more letters. */
  predicate IsExtension(ext: string)
  {
    |ext| >= 2 && ext[0] == '.' && forall k :: 1 <= k < |ext| ==> IsLetter(ext[k])
  }

  /** Index of the first '.' in `s`, or |s| when there is none. */
  function FirstDot(s: string): (i: nat)
    ensures i <= |s|
    ensures i < |s| ==> s[i] == '.'
    ensures forall j :: 0 <= j < i ==> s[j] != '.'
    decreases |s|
  {
    if |s| == 0 then 0 else if s[0] == '.' then 0 else 1 + FirstDot(s[1..])
  }

  /** The finder's test: the part before the first dot is a base name in any
      letter case, and what follows is nothing or one letters-only extension. */
  predicate IsLicenseFileName(name: string)
  {
    var i := FirstDot(name);
    Upper(name[..i]) in BaseNames && (i == |name| || IsExtension(name[i..]))
  }

  /** The regular expression read literally: SOME split of the name into a
      base name and an optional extension. */
  ghost predicate MatchesPattern(name: string)
  {
    exists k :: 0 <= k <= |name| && Upper(name[..k]) in BaseNames && (k == |name| || IsExtension(name[k..]))
  }

  /** No base name contains a dot, so an accepted base ends at the first dot. */
  lemma BaseHasNoDot(base: string)
    requires Upper(base) in BaseNames
    ensures forall j :: 0 <= j < |base| ==> base[j] != '.'
  {
    var u := Upper(base);
    assert forall b :: b in BaseNames ==> forall j :: 0 <= j < |b| ==> b[j] != '.';
    forall j | 0 <= j < |base|
      ensures base[j] != '.'
    {
      assert u[j] == UpperChar(base[j]);
    }
  }

  /** The first-dot test accepts exactly the names the regular expression matches. */
  lemma {:induction false} LicenseFileNameIsPattern(name: string)
    ensures IsLicenseFileName(name) <==> MatchesPattern(name)
  {
    var i := FirstDot(name);
    if IsLicenseFileName(name) {
      assert 0 <= i <= |name| && Upper(name[..i]) in BaseNames && (i == |name| || IsExtension(name[i..]));
    }
    if MatchesPattern(name) {
      var k :| 0 <= k <= |name| && Upper(name[..k]) in BaseNames && (k == |name| || IsExtension(name[k..]));
      BaseHasNoDot(name[..k]);
      assert forall j :: 0 <= j < k ==> name[j] != '.' by {
        forall j | 0 <= j < k ensures name[j] != '.' {
          assert name[..k][j] == name[j];
        }
      }
      assert k < |name| ==> name[k] == '.';
      assert i == k;
    }
  }

  /** A name whose first `k` characters upper-case to a base name and whose
      rest is empty or an extension is accepted. */
  lemma AcceptsSplit(name: string, k: nat, base: string)
    requires k <= |name| && base in BaseNames && Upper(name[..k]) == base
    requires k == |name| || IsExtension(name[k..])
    ensures IsLicenseFileName(name)
  {
    LicenseFileNameIsPattern(name);
  }

  /** A mixed-case base with a letters-only extension is accepted. */
  lemma AcceptsMixedCaseWithExtension()
    ensures IsLicenseFileName("License.txt")
  {
    assert "License.txt"[..7] == "License";
    assert Upper("License") == "LICENSE";
    assert IsExtension("License.txt"[7..]);
    AcceptsSplit("License.txt", 7, "LICENSE");
  }

  /** The optional `UN` prefix is accepted in any case. */
  lemma AcceptsUnlicense()
    ensures IsLicenseFileName("Unlicense")
  {
    assert Upper("Unlicense") == "UNLICENSE";
    AcceptsSplit("Unlicense", 9, "UNLICENSE");
  }

  /** The plural `licenses.go` is rejected: its base is not a base name. */
  lemma RejectsPlural()
    ensures !IsLicenseFileName("licenses.go")
  {
    assert FirstDot("licenses.go") == 8;
    assert "licenses.go"[..8] == "licenses";
    assert Upper("licenses") == "LICENSES";
  }

  /** Go source and module files are rejected. */
  lemma RejectsGoFiles()
    ensures !IsLicenseFileName("main.go")
    ensures !IsLicenseFileName("go.mod")
  {
    assert FirstDot("main.go") == 4;
    assert "main.go"[..4] == "main";
    assert Upper("main")[0] == 'M';
    assert FirstDot("go.mod") == 2;
    assert "go.mod"[..2] == "go";
    assert Upper("go")[0] == 'G';
  }

  /** An ordinary source or documentation file is rejected. */
  lemma RejectsReadme()
    ensures !IsLicenseFileName("README.md")
  {
    assert FirstDot("README.md") == 6;
    assert "README.md"[..6] == "README";
  }

  /** A directory name the finder prunes is no license file name either. */
  lemma RejectsVendor()
    ensures !IsLicenseFileName("vendor")
  {
    assert FirstDot("vendor") == 6;
    assert "vendor"[..6] == "vendor";
    assert Upper("vendor")[0] == 'V';
  }
}

=== FILE: report.dfy ===
/** The report command's decisions before rendering: order the aggregated
    files, apply the allow-list policy, and label each file's licenses. */
module Report {
  import opened Results
  import opened Text
  import opened Domain
  import Taxonomy

  /** The licenses the command accepts. */
  const AllowedLicenses: set<string> := {
    "MIT", "Apache-2.0", "BSD-2-Clause", "BSD-3-Clause", "ISC",
    "MPL-2.0", "Unlicense", "CC-BY-SA-4.0", "Python-2.0"
  }

  /** The command's allow-list is the taxonomy's set of known identifiers. */
  lemma AllowedMatchesTaxonomy()
    ensures AllowedLicenses == Taxonomy.AllowedLicenses()
  {
    assert Taxonomy.AllowedLicenses() == Taxonomy.KnownLicenses.Keys;
  }

  /** The policy: a named license outside the allow-list.  An empty name
      (nothing recognised) needs review but is no violation. */
  predicate IsDisallowed(l: License)
  {
    l.name !in AllowedLicenses && l.name != ""
  }

  /** The policy in the taxonomy's terms: a license is flagged exactly when it
      has a name and lookup does not make that name a known variant. */
  lemma DisallowedOutsideTaxonomy(l: License)
    ensures IsDisallowed(l) <==> l.name != "" && !Taxonomy.LicenseTypeFromSpdx(l.name).IsKnown()
  {
    AllowedMatchesTaxonomy();
  }

  /** One reported violation. */
  datatype Violation = Violation(modulePath: string, version: string, name: string, relPath: string)

  function ViolationOf(lf: LicenseFile, l: License): Violation
  {
    Violation(lf.mod.path, lf.mod.version, l.name, lf.relPath)
  }

  /** The line printed for a violation: `path@version: name (relPath)`. */
  function Line(v: Violation): string
  {
    v.modulePath + "@" + v.version + ": " + v.name + " (" + v.relPath + ")"
  }

  /** The line determines the violation, as long as the module path has no
      '@', the version no ':' and the license name no '(' (true of Go module
      paths, semantic versions and SPDX identifiers): no two violations are
      merged into one line. */
  lemma LineInjective(v1: Violation, v2: Violation)
    requires Lacks(v1.modulePath, '@') && Lacks(v2.modulePath, '@')
    requires Lacks(v1.version, ':') && Lacks(v2.version, ':')
    requires Lacks(v1.name, '(') && Lacks(v2.name, '(')
    ensures Line(v1) == Line(v2) ==> v1 == v2
  {
    if Line(v1) == Line(v2) {
      var w1, w2 := v1.relPath + ")", v2.relPath + ")";
      var u1, u2 := v1.name + " " + "(" + w1, v2.name + " " + "(" + w2;
      var t1, t2 := v1.version + ": " + u1, v2.version + ": " + u2;
      assert Line(v1) == v1.modulePath + "@" + t1;
      assert Line(v2) == v2.modulePath + "@" + t2;
      FieldSplit(v1.modulePath, t1, v2.modulePath, t2, "@");
      FieldSplit(v1.version, u1, v2.version, u2, ": ");
      assert Lacks(v1.name + " ", '(') && Lacks(v2.name + " ", '(');
      FieldSplit(v1.name + " ", w1, v2.name + " ", w2, "(");
      assert v1.name == (v1.name + " ")[..|v1.name|];
      assert v2.name == (v2.name + " ")[..|v2.name|];
      assert v1.relPath == w1[..|w1| - 1];
      assert v2.relPath == w2[..|w2| - 1];
    }
  }

  function Lines(vs: seq<Violation>): seq<string>
  {
    seq(|vs|, k requires 0 <= k < |vs| => Line(vs[k]))
  }

  /** The violations among the licenses `ls` of `lf`, in order. */
  function FileViolations(lf: LicenseFile, ls: seq<License>): (vs: seq<Violation>)
    ensures |vs| <= |ls|
    ensures forall k :: 0 <= k < |vs| ==> vs[k].name !in AllowedLicenses && vs[k].name != ""
    ensures forall k :: 0 <= k < |vs| ==>
      vs[k].modulePath == lf.mod.path && vs[k].version == lf.mod.version && vs[k].relPath == lf.relPath
  {
    if |ls| == 0 then []
    else (if IsDisallowed(ls[0]) then [ViolationOf(lf, ls[0])] else []) + FileViolations(lf, ls[1..])
  }

  /** The violations of all files, file by file, license by license. */
  function Violations(files: seq<LicenseFile>): (vs: seq<Violation>)
    ensures forall k :: 0 <= k < |vs| ==> vs[k].name !in AllowedLicenses && vs[k].name != ""
  {
    if |files| == 0 then [] else FileViolations(files[0], files[0].licenses) + Violations(files[1..])
  }

  /** `files[i].licenses[j]` is a flagged license. */
  ghost predicate Flagged(files: seq<LicenseFile>, i: int, j: int)
  {
    0 <= i < |files| && 0 <= j < |files[i].licenses| && IsDisallowed(files[i].licenses[j])
  }

  lemma {:induction false} FileViolationsMembers(lf: LicenseFile, ls: seq<License>, v: Violation)
    ensures v in FileViolations(lf, ls) <==> exists j :: 0 <= j < |ls| && IsDisallowed(ls[j]) && v == ViolationOf(lf, ls[j])
  {
    if |ls| > 0 {
      FileViolationsMembers(lf, ls[1..], v);
      if exists j :: 0 <= j < |ls[1..]| && IsDisallowed(ls[1..][j]) && v == ViolationOf(lf, ls[1..][j]) {
        var j :| 0 <= j < |ls[1..]| && IsDisallowed(ls[1..][j]) && v == ViolationOf(lf, ls[1..][j]);
        assert ls[j + 1] == ls[1..][j];
      }
      if exists j :: 0 <= j < |ls| && IsDisallowed(ls[j]) && v == ViolationOf(lf, ls[j]) {
        var j :| 0 <= j < |ls| && IsDisallowed(ls[j]) && v == ViolationOf(lf, ls[j]);
        if j > 0 {
          assert ls[1..][j - 1] == ls[j];
        }
      }
    }
  }

  /** Every flagged license of every file is reported, and nothing else is. */
  lemma {:induction false} ViolationsMembers(files: seq<LicenseFile>, v: Violation)
    ensures v in Violations(files) <==>
      exists i, j :: Flagged(files, i, j) && v == ViolationOf(files[i], files[i].licenses[j])
  {
    if |files| > 0 {
      ViolationsMembers(files[1..], v);
      FileViolationsMembers(files[0], files[0].licenses, v);
      if exists i, j :: Flagged(files[1..], i, j) && v == ViolationOf(files[1..][i], files[1..][i].licenses[j]) {
        var i, j :| Flagged(files[1..], i, j) && v == ViolationOf(files[1..][i], files[1..][i].licenses[j]);
        assert files[i + 1] == files[1..][i];
        assert Flagged(files, i + 1, j);
      }
      if exists i, j :: Flagged(files, i, j) && v == ViolationOf(files[i], files[i].licenses[j]) {
        var i, j :| Flagged(files, i, j) && v == ViolationOf(files[i], files[i].licenses[j]);
        if i > 0 {
          assert files[1..][i - 1] == files[i];
          assert Flagged(files[1..], i - 1, j);
        } else {
          assert IsDisallowed(files[0].licenses[j]);
        }
      }
    }
  }

  /** The positions of the flagged licenses among `ls`. */
  ghost function FlaggedIn(ls: seq<License>): set<nat>
  {
    set j: nat | j < |ls| && IsDisallowed(ls[j])
  }

  /** The flagged (file, license) index pairs of the aggregation. */
  ghost function FlaggedPairs(files: seq<LicenseFile>): set<(int, int)>
  {
    set i, j | 0 <= i < |files| && 0 <= j < |files[i].licenses| && Flagged(files, i, j) :: (i, j)
  }

  /** Every position moved one further along. */
  ghost function Shift(s: set<nat>): set<nat>
  {
    set j | j in s :: j + 1
  }

  lemma {:induction false} ShiftSize(s: set<nat>)
    ensures |Shift(s)| == |s|
    decreases |s|
  {
    if |s| == 0 {
      assert Shift(s) == {};
    } else {
      var x :| x in s;
      var rest := s - {x};
      ShiftSize(rest);
      assert Shift(s) == Shift(rest) + {x + 1} by {
        forall j | j in Shift(s) ensures j in Shift(rest) + {x + 1} {
          var k :| k in s && j == k + 1;
          if k != x {
            assert k in rest;
          }
        }
      }
      assert x + 1 !in Shift(rest);
    }
  }

  /** Every pair moved one file further along. */
  ghost function ShiftFile(s: set<(int, int)>): set<(int, int)>
  {
    set p | p in s :: (p.0 + 1, p.1)
  }

  lemma {:induction false} ShiftFileSize(s: set<(int, int)>)
    ensures |ShiftFile(s)| == |s|
    decreases |s|
  {
    if |s| == 0 {
      assert ShiftFile(s) == {};
    } else {
      var x :| x in s;
      var rest := s - {x};
      ShiftFileSize(rest);
      assert ShiftFile(s) == ShiftFile(rest) + {(x.0 + 1, x.1)};
      assert (x.0 + 1, x.1) !in ShiftFile(rest);
    }
  }

  /** Positions in the first file, as pairs. */
  ghost function InFirstFile(s: set<nat>): set<(int, int)>
  {
    set j | j in s :: (0, j)
  }

  lemma {:induction false} InFirstFileSize(s: set<nat>)
    ensures |InFirstFile(s)| == |s|
    decreases |s|
  {
    if |s| == 0 {
      assert InFirstFile(s) == {};
    } else {
      var x :| x in s;
      var rest := s - {x};
      InFirstFileSize(rest);
      assert InFirstFile(s) == InFirstFile(rest) + {(0, x)};
      assert (0, x) !in InFirstFile(rest);
    }
  }

  lemma FlaggedInCons(ls: seq<License>)
    requires |ls| > 0
    ensures FlaggedIn(ls) == (if IsDisallowed(ls[0]) then {0} else {}) + Shift(FlaggedIn(ls[1..]))
  {
    forall j | j in FlaggedIn(ls) && j > 0 ensures j in Shift(FlaggedIn(ls[1..])) {
      assert ls[1..][j - 1] == ls[j];
      assert j - 1 in FlaggedIn(ls[1..]);
    }
    forall j | j in Shift(FlaggedIn(ls[1..])) ensures j in FlaggedIn(ls) {
      var k :| k in FlaggedIn(ls[1..]) && j == k + 1;
      assert ls[1..][k] == ls[j];
    }
  }

  /** A file yields one violation per flagged license. */
  lemma {:induction false} FileViolationsCount(lf: LicenseFile, ls: seq<License>)
    ensures |FileViolations(lf, ls)| == |FlaggedIn(ls)|
  {
    if |ls| == 0 {
      assert FlaggedIn(ls) == {};
    } else {
      FileViolationsCount(lf, ls[1..]);
      FlaggedInCons(ls);
      ShiftSize(FlaggedIn(ls[1..]));
      assert 0 !in Shift(FlaggedIn(ls[1..]));
    }
  }

  lemma FlaggedPairsCons(files: seq<LicenseFile>)
    requires |files| > 0
    ensures FlaggedPairs(files) == InFirstFile(FlaggedIn(files[0].licenses)) + ShiftFile(FlaggedPairs(files[1..]))
  {
    forall p | p in FlaggedPairs(files) && p.0 > 0 ensures p in ShiftFile(FlaggedPairs(files[1..])) {
      assert files[1..][p.0 - 1] == files[p.0];
      assert (p.0 - 1, p.1) in FlaggedPairs(files[1..]);
    }
    forall p | p in ShiftFile(FlaggedPairs(files[1..])) ensures p in FlaggedPairs(files) {
      var q :| q in FlaggedPairs(files[1..]) && p == (q.0 + 1, q.1);
      assert files[1..][q.0] == files[p.0];
    }
  }

  /** The report has exactly one violation per flagged (file, license) pair. */
  lemma {:induction false} ViolationsCount(files: seq<LicenseFile>)
    ensures |Violations(files)| == |FlaggedPairs(files)|
  {
    if |files| == 0 {
      assert FlaggedPairs(files) == {};
    } else {
      ViolationsCount(files[1..]);
      FileViolationsCount(files[0], files[0].licenses);
      FlaggedPairsCons(files);
      InFirstFileSize(FlaggedIn(files[0].licenses));
      ShiftFileSize(FlaggedPairs(files[1..]));
      assert InFirstFile(FlaggedIn(files[0].licenses)) * ShiftFile(FlaggedPairs(files[1..])) == {};
    }
  }

  lemma {:induction false} ViolationsAppend(a: seq<LicenseFile>, b: seq<LicenseFile>)
    ensures Violations(a + b) == Violations(a) + Violations(b)
  {
    if |a| == 0 {
      assert a + b == b;
    } else {
      assert (a + b)[0] == a[0];
      assert (a + b)[1..] == a[1..] + b;
      ViolationsAppend(a[1..], b);
    }
  }

  // ---------------------------------------------------------------------
  // Ordering by (module path, relative path)

  /** The comparison handed to sort.Slice. */
  predicate KeyLess(a: LicenseFile, b: LicenseFile)
  {
    if a.mod.path != b.mod.path then Less(a.mod.path, b.mod.path) else Less(a.relPath, b.relPath)
  }

  /** The comparison is a strict order: irreflexive and asymmetric, as
      sort.Slice needs. */
  lemma KeyLessStrict(a: LicenseFile, b: LicenseFile)
    ensures !KeyLess(a, a)
    ensures KeyLess(a, b) ==> !KeyLess(b, a)
  {
    LessIrreflexive(a.mod.path);
    LessIrreflexive(a.relPath);
    if KeyLess(a, b) && KeyLess(b, a) {
      if a.mod.path != b.mod.path {
        LessTransitive(a.mod.path, b.mod.path, a.mod.path);
      } else {
        LessTransitive(a.relPath, b.relPath, a.relPath);
      }
    }
  }

  predicate KeyLeq(a: LicenseFile, b: LicenseFile)
  {
    !KeyLess(b, a)
  }

  predicate Sorted(s: seq<LicenseFile>)
  {
    forall i, j :: 0 <= i < j < |s| ==> KeyLeq(s[i], s[j])
  }

  lemma KeyLeqTotal(a: LicenseFile, b: LicenseFile)
    ensures KeyLeq(a, b) || KeyLeq(b, a)
  {
    if a.mod.path != b.mod.path {
      if Less(a.mod.path, b.mod.path) && Less(b.mod.path, a.mod.path) {
        LessTransitive(a.mod.path, b.mod.path, a.mod.path);
        LessIrreflexive(a.mod.path);
      }
    } else if Less(a.relPath, b.relPath) && Less(b.relPath, a.relPath) {
      LessTransitive(a.relPath, b.relPath, a.relPath);
      LessIrreflexive(a.relPath);
    }
  }

  lemma KeyLeqTransitive(a: LicenseFile, b: LicenseFile, c: LicenseFile)
    requires KeyLeq(a, b) && KeyLeq(b, c)
    ensures KeyLeq(a, c)
  {
    if KeyLess(c, a) {
      // a <= b <= c < a is impossible
      if a.mod.path != b.mod.path {
        LessTotal(a.mod.path, b.mod.path);
      }
      if b.mod.path != c.mod.path {
        LessTotal(b.mod.path, c.mod.path);
      }
      if a.relPath != b.relPath {
        LessTotal(a.relPath, b.relPath);
      }
      if b.relPath != c.relPath {
        LessTotal(b.relPath, c.relPath);
      }
      if c.mod.path != a.mod.path {
        LessTransitive(c.mod.path, a.mod.path, b.mod.path);
        if c.mod.path != b.mod.path {
          LessTransitive(c.mod.path, b.mod.path, c.mod.path);
        }
        LessIrreflexive(c.mod.path);
      } else {
        LessTransitive(c.relPath, a.relPath, b.relPath);
        if c.relPath != b.relPath {
          LessTransitive(c.relPath, b.relPath, c.relPath);
        }
        LessIrreflexive(c.relPath);
      }
    }
  }

  /** Places `x` before the first element it does not follow. */
  function Insert(x: LicenseFile, s: seq<LicenseFile>): (r: seq<LicenseFile>)
    requires Sorted(s)
    ensures Sorted(r)
    ensures multiset(r) == multiset(s) + multiset{x}
    decreases |s|
  {
    if |s| == 0 then [x]
    else if KeyLeq(x, s[0]) then
      assert forall j :: 0 < j < |s| ==> KeyLeq(x, s[j]) by {
        forall j | 0 < j < |s| ensures KeyLeq(x, s[j]) {
          KeyLeqTransitive(x, s[0], s[j]);
        }
      }
      [x] + s
    else
      KeyLeqTotal(x, s[0]);
      assert s == [s[0]] + s[1..];
      var tail := Insert(x, s[1..]);
      BoundKept(s[0], x, s[1..], tail);
      [s[0]] + tail
  }

  /** A lower bound of `x` and of every element of `s` bounds every element
      of a rearrangement of the two. */
  lemma BoundKept(b: LicenseFile, x: LicenseFile, s: seq<LicenseFile>, t: seq<LicenseFile>)
    requires KeyLeq(b, x) && forall j :: 0 <= j < |s| ==> KeyLeq(b, s[j])
    requires multiset(t) == multiset(s) + multiset{x}
    ensures forall j :: 0 <= j < |t| ==> KeyLeq(b, t[j])
  {
    forall j | 0 <= j < |t| ensures KeyLeq(b, t[j]) {
      assert t[j] in multiset(t);
      if t[j] != x {
        assert t[j] in multiset(s);
        var k :| 0 <= k < |s| && s[k] == t[j];
      }
    }
  }

  /** An ordering of the files by (module path, relative path).  sort.Slice
      is not stable; this is one of the orders it may produce. */
  function SortFiles(s: seq<LicenseFile>): (r: seq<LicenseFile>)
    ensures Sorted(r)
    ensures multiset(r) == multiset(s)
    decreases |s|
  {
    if |s| == 0 then []
    else
      assert s == [s[0]] + s[1..];
      Insert(s[0], SortFiles(s[1..]))
  }

  /** Inserting a file adds exactly its violations to the report. */
  lemma {:induction false} InsertKeepsViolations(x: LicenseFile, s: seq<LicenseFile>)
    requires Sorted(s)
    ensures multiset(Violations(Insert(x, s))) == multiset(FileViolations(x, x.licenses)) + multiset(Violations(s))
    decreases |s|
  {
    if |s| > 0 && !KeyLeq(x, s[0]) {
      InsertKeepsViolations(x, s[1..]);
      ViolationsAppend([s[0]], Insert(x, s[1..]));
      ViolationsAppend([s[0]], s[1..]);
      assert [s[0]] + s[1..] == s;
      assert Violations([s[0]]) == FileViolations(s[0], s[0].licenses) by {
        assert [s[0]][1..] == [];
      }
    } else if |s| > 0 {
      ViolationsAppend([x], s);
      assert Violations([x]) == FileViolations(x, x.licenses) by {
        assert [x][1..] == [];
      }
    } else {
      assert Violations([x]) == FileViolations(x, x.licenses) by {
        assert [x][1..] == [];
      }
    }
  }

  /** Sorting neither adds nor drops a violation. */
  lemma {:induction false} SortKeepsViolations(s: seq<LicenseFile>)
    ensures multiset(Violations(SortFiles(s))) == multiset(Violations(s))
    decreases |s|
  {
    if |s| > 0 {
      SortKeepsViolations(s[1..]);
      InsertKeepsViolations(s[0], SortFiles(s[1..]));
    }
  }

  // ---------------------------------------------------------------------
  // The report command

  /** ReportCmd.Run up to the rendering: an aggregation error passes through
      unchanged; otherwise the files are sorted and the policy applied; on
      success the sorted files are what the report renders. */
  function Run(aggregated: Result<seq<LicenseFile>>): (r: Result<seq<LicenseFile>>)
    ensures aggregated.Err? ==> r == aggregated
    ensures r.Ok? ==> Sorted(r.value) && multiset(r.value) == multiset(aggregated.value)
    ensures r.Err? && aggregated.Ok? ==> r.error.Disallowed? && r.error.count == |r.error.entries| > 0
  {
    if aggregated.Err? then aggregated
    else
      var sorted := SortFiles(aggregated.value);
      var disallowed := Violations(sorted);
      if |disallowed| > 0 then Err(Disallowed(|disallowed|, Lines(disallowed))) else Ok(sorted)
  }

  /** The gate fails exactly when some file carries a disallowed, non-empty
      license name. */
  lemma RunGate(files: seq<LicenseFile>)
    ensures Run(Ok(files)).Ok? <==> forall i, j :: !Flagged(files, i, j)
  {
    SortKeepsViolations(files);
    var vs := Violations(files);
    if |vs| > 0 {
      ViolationsMembers(files, vs[0]);
      assert vs[0] in multiset(Violations(SortFiles(files)));
    } else {
      forall i, j ensures !Flagged(files, i, j) {
        if Flagged(files, i, j) {
          ViolationsMembers(files, ViolationOf(files[i], files[i].licenses[j]));
        }
      }
      assert |Violations(SortFiles(files))| == 0 by {
        assert |multiset(Violations(SortFiles(files)))| == 0;
      }
    }
  }

  /** A failing gate lists every violation in sorted-file order; as a
      multiset these are the violations of the unsorted aggregation. */
  lemma RunListsViolations(files: seq<LicenseFile>)
    ensures Run(Ok(files)).Err? ==>
      Run(Ok(files)).error.entries == Lines(Violations(SortFiles(files))) &&
      multiset(Violations(SortFiles(files))) == multiset(Violations(files))
  {
    SortKeepsViolations(files);
  }


  /** A failing gate counts one violation per flagged (file, license) pair. */
  lemma RunCountsFlagged(files: seq<LicenseFile>)
    ensures Run(Ok(files)).Err? ==> Run(Ok(files)).error.count == |FlaggedPairs(files)|
  {
    SortKeepsViolations(files);
    assert |Violations(SortFiles(files))| == |Violations(files)| by {
      assert |multiset(Violations(SortFiles(files)))| == |multiset(Violations(files))|;
    }
    ViolationsCount(files);
  }

  // ---------------------------------------------------------------------
  // License labels

  function Names(ls: seq<License>): seq<string>
  {
    seq(|ls|, k requires 0 <= k < |ls| => ls[k].name)
  }

  /** The label of a file in the report: its license names joined by ", ",
      or "Unknown" when none was recognised. */
  function LicenseNames(lf: LicenseFile): (shown: string)
    ensures |lf.licenses| == 0 ==> shown == "Unknown"
    ensures |lf.licenses| == 1 ==> shown == lf.licenses[0].name
    ensures |lf.licenses| > 1 ==> Contains(shown, ListSep)
  {
    var names := Names(lf.licenses);
    if |names| == 0 then "Unknown"
    else
      var shown := Join(names, ListSep);
      assert |names| > 1 ==> OccursAt(shown, ListSep, |names[0]|);
      shown
  }

  /** A file without licenses is labelled "Unknown"; otherwise the label
      lists the license names, all of them and in order (names from the
      classifier never contain a comma). */
  lemma LicenseNamesListsNames(lf: LicenseFile)
    ensures |lf.licenses| == 0 ==> LicenseNames(lf) == "Unknown"
    ensures |lf.licenses| > 0 && (forall k :: 0 <= k < |lf.licenses| ==> NoComma(lf.licenses[k].name)) ==>
      SplitList(LicenseNames(lf)) == Names(lf.licenses)
  {
    if |lf.licenses| > 0 && (forall k :: 0 <= k < |lf.licenses| ==> NoComma(lf.licenses[k].name)) {
      SplitJoin(Names(lf.licenses));
    }
  }
}

=== FILE: results.dfy ===
/** Failures and results shared by every stage of the license pipeline.

    Go reports failures as `error` values and builds context around them with
    `fmt.Errorf("<context>: %w", cause)`.  The model keeps that shape: a
    `Wrapped` error carries its context text and the unchanged cause. */
module Results {

  /** The failures the pipeline can report. */
  datatype Error =
    | Canceled                                   // ctx.Err() after cancellation
    | Io(op: string, path: string)               // a filesystem or subprocess failure
    | Wrapped(context: string, cause: Error)     // fmt.Errorf("<context>: %w", cause)
    | Disallowed(count: nat, entries: seq<string>) // the policy gate's report

  /** Either a value or the error that stopped the computation. */
  datatype Result<+T> = Ok(value: T) | Err(error: Error)

  /** Presence or absence of a value (a probe that may find nothing). */
  datatype Option<+T> = None | Some(value: T)
}

=== FILE: scenarios.dfy ===
/** Worked runs of the whole pipeline on small fixed inputs. */
module Scenarios {
  import opened Results
  import opened Taxonomy
  import opened Domain
  import Aggregator
  import Finder
  import Report
  import FilePattern
  import Paths

  const ModA: Module := Module("a", "v1.0.0", "/dirA")

  function ResolveA(projectDir: string): Result<seq<Module>>
  {
    Ok([ModA])
  }

  function FindLicenseFile(m: Module): Result<seq<string>>
  {
    Ok(["/dirA/LICENSE"])
  }

  /** A classifier that recognises `name` in every file. */
  function ClassifyAs(name: string): Aggregator.Classifier
  {
    _ => Ok([License(name, LicenseTypeFromSpdx(name))])
  }

  /** One module whose only license file is classified as `name`. */
  function OneFileRun(name: string): Result<seq<LicenseFile>>
  {
    Aggregator.Aggregate(ResolveA, FindLicenseFile, ClassifyAs(name), "/project")
  }

  /** The run yields one entry, relative to the module root, carrying the
      classifier's licenses. */
  lemma OneFileRunEntry(name: string)
    ensures OneFileRun(name) == Ok([LicenseFile("/dirA/LICENSE", "LICENSE", ModA, [License(name, LicenseTypeFromSpdx(name))])])
  {
    var classify := ClassifyAs(name);
    var paths := ["/dirA/LICENSE"];
    var lf := LicenseFile("/dirA/LICENSE", "LICENSE", ModA, [License(name, LicenseTypeFromSpdx(name))]);
    assert Paths.Rel("/dirA", "/dirA/LICENSE") == "LICENSE" by {
      assert Paths.Join("/dirA", "LICENSE") == "/dirA/LICENSE";
      Paths.RelOfJoin("/dirA", "LICENSE");
    }
    assert Aggregator.Entry(ModA, paths[0], lf.licenses) == lf;
    assert Aggregator.ClassifyPaths(ModA, paths, classify) == Ok([lf]) by {
      assert paths[1..] == [];
      assert classify(paths[0]) == Ok(lf.licenses);
      assert Aggregator.ClassifyPaths(ModA, [], classify) == Ok([]);
      assert [lf] + [] == [lf];
    }
    assert Aggregator.AggregateModules([ModA], FindLicenseFile, classify) == Ok([lf]) by {
      assert [ModA][1..] == [];
      assert FindLicenseFile(ModA) == Ok(paths);
      assert Aggregator.AggregateModules([], FindLicenseFile, classify) == Ok([]);
      assert [lf] + [] == [lf];
    }
  }

  /** An MIT-licensed dependency passes the gate. */
  lemma MitDependencyPasses()
    ensures Report.Run(OneFileRun("MIT")).Ok?
  {
    OneFileRunEntry("MIT");
    var lf := LicenseFile("/dirA/LICENSE", "LICENSE", ModA, [License("MIT", LicenseTypeFromSpdx("MIT"))]);
    assert Report.SortFiles([lf]) == [lf];
    assert Report.Violations([lf]) == [] by {
      assert [lf][1..] == [];
      assert Report.FileViolations(lf, lf.licenses) == [] by {
        assert lf.licenses[1..] == [];
      }
    }
  }

  const GplFile: LicenseFile := LicenseFile("/dirA/LICENSE", "LICENSE", ModA, [License("GPL-3.0", LicenseTypeFromSpdx("GPL-3.0"))])

  const GplViolation: Report.Violation := Report.Violation("a", "v1.0.0", "GPL-3.0", "LICENSE")

  /** The GPL-3.0 file yields one violation. */
  lemma GplFileViolations()
    ensures Report.Violations([GplFile]) == [GplViolation]
  {
    var lf := GplFile;
    assert [lf][1..] == [];
    assert Report.FileViolations(lf, lf.licenses) == [GplViolation] by {
      assert lf.licenses[1..] == [];
      assert Report.IsDisallowed(lf.licenses[0]);
      assert Report.ViolationOf(lf, lf.licenses[0]) == GplViolation;
    }
    assert [GplViolation] + [] == [GplViolation];
  }

  /** The violation is reported as module@version: name (relative path). */
  lemma GplViolationLine()
    ensures Report.Lines([GplViolation]) == ["a@v1.0.0: GPL-3.0 (LICENSE)"]
  {
    assert Report.Line(GplViolation) == "a@v1.0.0: GPL-3.0 (LICENSE)";
  }

  /** A GPL-3.0 dependency fails the gate with exactly one violation line. */
  lemma GplDependencyFails()
    ensures Report.Run(OneFileRun("GPL-3.0")) == Err(Disallowed(1, ["a@v1.0.0: GPL-3.0 (LICENSE)"]))
  {
    OneFileRunEntry("GPL-3.0");
    assert Report.SortFiles([GplFile]) == [GplFile];
    GplFileViolations();
    GplViolationLine();
  }

  /** A failing resolver stops the run before any finder or classifier. */
  lemma ResolverFailureAbortsRun()
    ensures Report.Run(Aggregator.Aggregate(_ => Err(Io("go mod download", "/project")), FindLicenseFile, ClassifyAs("MIT"), "/project"))
      == Err(Wrapped("resolving modules", Io("go mod download", "/project")))
  {
  }

  const Vendored: Finder.Entry := Finder.Dir("vendor", [Finder.Dir("dep", [Finder.File("LICENSE")])])

  const VendoredTree: Finder.Entry := Finder.Dir("dirA", [Finder.File("LICENSE"), Vendored])

  /** The walk reports a top-level LICENSE file under its joined path. */
  lemma WalkTopLicense()
    ensures Finder.Walk(Paths.Join("/dirA", "LICENSE"), Finder.File("LICENSE"), false) == Ok(["/dirA/LICENSE"])
  {
    assert Paths.Join("/dirA", "LICENSE") == "/dirA/LICENSE";
    assert "LICENSE"[..7] == "LICENSE";
    FilePattern.AcceptsSplit("LICENSE", 7, "LICENSE");
  }

  /** The walk names the module's root after its directory's last element. */
  lemma RootKeepsName()
    ensures Finder.AtRoot("/dirA", VendoredTree) == VendoredTree
  {
    assert "/dirA" == "/" + "dirA";
    Paths.BaseAfterSlash("/", "dirA");
  }

  /** A module tree with a vendored copy of a dependency: only the module's
      own LICENSE is found. */
  lemma VendoredLicenseIsSkipped()
    ensures Finder.Find(ModA, Some(VendoredTree), false) == Ok(["/dirA/LICENSE"])
  {
    var t := VendoredTree;
    RootKeepsName();
    var none: seq<string> := [];
    var top := ["/dirA/LICENSE"];
    assert t.children == [Finder.File("LICENSE"), Vendored];
    WalkTopLicense();
    assert Finder.Walk(Paths.Join("/dirA", "vendor"), Vendored, false) == Ok(none);
    assert Finder.WalkChildren("/dirA", t, 2, false) == Ok(none);
    assert none + none == none;
    assert Finder.WalkChildren("/dirA", t, 1, false) == Ok(none);
    assert Finder.Walk(Paths.Join("/dirA", t.children[0].name), t.children[0], false) == Ok(top);
    assert Finder.WalkChildren("/dirA", t, 0, false) == Ok(top + none);
    assert top + none == top;
    assert Finder.Walk("/dirA", t, false) == Ok(top);
  }

  /** A module whose own directory is called vendor is skipped whole, whatever
      its tree holds: the root entry takes the directory's name. */
  lemma VendorModuleIsSkipped()
    ensures Finder.Find(Module("b", "v1.0.0", "/x/vendor"), Some(Finder.Dir("x", [Finder.File("LICENSE")])), false) == Ok([])
  {
    assert "/x/vendor" == "/x/" + "vendor";
    Paths.BaseAfterSlash("/x/", "vendor");
    Finder.FindSkipsVendorRoot(Module("b", "v1.0.0", "/x/vendor"), Finder.Dir("x", [Finder.File("LICENSE")]));
  }
}

=== FILE: taxonomy.dfy ===
/** The license taxonomy: a closed set of license variants, each knowing its
    SPDX identifier and the files a distribution must bundle to comply. */
module Taxonomy {
  import opened Results

  /** One variant per Go type implementing LicenseType. */
  datatype LicenseType =
    | MIT
    | Apache2
    | BSD2Clause
    | BSD3Clause
    | ISC
    | MPL2
    | Unlicense
    | CCBYSA4
    | Python2
    | UnknownLicense(name: string)   // a license the taxonomy does not know
    | NoticeFile                     // a NOTICE or COPYRIGHT file, not a license
  {
    /** The SPDX identifier of the variant. */
    function Spdx(): string
    {
      match this
      case MIT => "MIT"
      case Apache2 => "Apache-2.0"
      case BSD2Clause => "BSD-2-Clause"
      case BSD3Clause => "BSD-3-Clause"
      case ISC => "ISC"
      case MPL2 => "MPL-2.0"
      case Unlicense => "Unlicense"
      case CCBYSA4 => "CC-BY-SA-4.0"
      case Python2 => "Python-2.0"
      case UnknownLicense(n) => n
      case NoticeFile => "(NOTICE)"
    }

    /** One of the nine variants with a fixed identifier and policy. */
    predicate IsKnown()
    {
      !UnknownLicense? && !NoticeFile?
    }
  }

  /** The process-wide table from SPDX identifier to variant. */
  const KnownLicenses: map<string, LicenseType> := map[
    "MIT" := MIT,
    "Apache-2.0" := Apache2,
    "BSD-2-Clause" := BSD2Clause,
    "BSD-3-Clause" := BSD3Clause,
    "ISC" := ISC,
    "MPL-2.0" := MPL2,
    "Unlicense" := Unlicense,
    "CC-BY-SA-4.0" := CCBYSA4,
    "Python-2.0" := Python2
  ]

  /** Every entry of the table is filed under its own identifier, and the
      table holds exactly the known variants. */
  lemma KnownLicensesConsistent()
    ensures forall s :: s in KnownLicenses ==> KnownLicenses[s].IsKnown() && KnownLicenses[s].Spdx() == s
    ensures forall t: LicenseType :: t.IsKnown() ==> t.Spdx() in KnownLicenses && KnownLicenses[t.Spdx()] == t
  {
  }

  /** A known variant's identifier tells it apart from every other known
      variant and from the NOTICE marker; only an UnknownLicense may carry
      the same identifier. */
  lemma SpdxTellsKnownApart(a: LicenseType, b: LicenseType)
    requires a.IsKnown()
    ensures b.IsKnown() || b.NoticeFile? ==> (a.Spdx() == b.Spdx() <==> a == b)
    ensures a.Spdx() in KnownLicenses && a.Spdx() != "(NOTICE)"
  {
    KnownLicensesConsistent();
  }

  /** The variant for an identifier; never fails. */
  function LicenseTypeFromSpdx(spdx: string): (t: LicenseType)
    ensures t.Spdx() == spdx
    ensures t.IsKnown() <==> spdx in KnownLicenses
    ensures !t.NoticeFile?
  {
    KnownLicensesConsistent();
    if spdx in KnownLicenses then KnownLicenses[spdx] else UnknownLicense(spdx)
  }

  /** The lookup gives every known variant back from its identifier. */
  lemma FromSpdxOfKnown(t: LicenseType)
    requires t.IsKnown()
    ensures LicenseTypeFromSpdx(t.Spdx()) == t
  {
    KnownLicensesConsistent();
  }

  /** An identifier outside the table is kept verbatim in an UnknownLicense,
      the empty identifier included. */
  lemma FromSpdxOfUnknown(spdx: string)
    requires spdx !in KnownLicenses
    ensures LicenseTypeFromSpdx(spdx) == UnknownLicense(spdx)
  {
  }

  /** Resolving twice changes nothing. */
  lemma FromSpdxIdempotent(spdx: string)
    ensures LicenseTypeFromSpdx(LicenseTypeFromSpdx(spdx).Spdx()) == LicenseTypeFromSpdx(spdx)
  {
  }

  /** The identifiers the policy accepts: exactly the table's keys. */
  function AllowedLicenses(): (allowed: set<string>)
    ensures forall s :: s in allowed <==> LicenseTypeFromSpdx(s).IsKnown()
    ensures "(NOTICE)" !in allowed && "" !in allowed
  {
    KnownLicenses.Keys
  }

  /** No UnknownLicense the lookup produces is ever allowed. */
  lemma UnknownNeverAllowed(spdx: string)
    requires LicenseTypeFromSpdx(spdx).UnknownLicense?
    ensures LicenseTypeFromSpdx(spdx).Spdx() !in AllowedLicenses()
  {
  }

  /** The NOTICE files Apache-2.0 asks for, in the order they are probed. */
  const NoticeCandidates: seq<string> := ["NOTICE", "NOTICE.txt", "NOTICE.md"]

  /** Position of the first `x` in `xs`, or |xs| when there is none. */
  function IndexOf(xs: seq<string>, x: string): (i: nat)
    ensures i <= |xs|
    ensures i < |xs| ==> xs[i] == x
    ensures forall j :: 0 <= j < i ==> xs[j] != x
    decreases |xs|
  {
    if |xs| == 0 then 0 else if xs[0] == x then 0 else 1 + IndexOf(xs[1..], x)
  }

  predicate Distinct(xs: seq<string>)
  {
    forall i, j :: 0 <= i < j < |xs| ==> xs[i] != xs[j]
  }

  /** The candidates of `cands` that exist among `present`, in probe order. */
  function PresentNotices(cands: seq<string>, present: set<string>): (found: seq<string>)
    requires Distinct(cands)
    ensures |found| <= |cands|
    ensures forall p :: p in found <==> p in cands && p in present
    ensures forall i, j :: 0 <= i < j < |found| ==> IndexOf(cands, found[i]) < IndexOf(cands, found[j])
    decreases |cands|
  {
    if |cands| == 0 then []
    else
      var rest := PresentNotices(cands[1..], present);
      assert forall p :: p in rest ==> p != cands[0] && IndexOf(cands, p) == 1 + IndexOf(cands[1..], p);
      if cands[0] in present then [cands[0]] + rest else rest
  }

  /** The files a distribution must bundle for a license found at
      `licenseRelPath`; `moduleFiles` are the names that exist in the module
      root (a failed probe counts as absent).  Never fails. */
  function CollectArtifacts(t: LicenseType, moduleFiles: set<string>, licenseRelPath: string): (r: Result<seq<string>>)
    ensures r.Ok?
    ensures |r.value| >= 1 && r.value[0] == licenseRelPath
    ensures !t.Apache2? ==> r.value == [licenseRelPath]
    ensures t.Apache2? ==> |r.value| <= 4
    ensures t.Apache2? ==> forall p :: p in r.value[1..] <==> p in NoticeCandidates && p in moduleFiles
    ensures t.Apache2? ==> forall i, j :: 1 <= i < j < |r.value| ==>
      IndexOf(NoticeCandidates, r.value[i]) < IndexOf(NoticeCandidates, r.value[j])
  {
    if t.Apache2? then
      var notices := PresentNotices(NoticeCandidates, moduleFiles);
      var artifacts := [licenseRelPath] + notices;
      assert artifacts[1..] == notices;
      Ok(artifacts)
    else
      Ok([licenseRelPath])
  }

  /** Apache-2.0 with no NOTICE file bundles the license alone; with exactly
      one it bundles the license then that file. */
  lemma ApacheArtifactsSingleNotice(moduleFiles: set<string>, licenseRelPath: string, notice: string)
    requires notice in NoticeCandidates
    requires forall p :: p in NoticeCandidates && p in moduleFiles ==> p == notice
    ensures notice in moduleFiles ==> CollectArtifacts(Apache2, moduleFiles, licenseRelPath).value == [licenseRelPath, notice]
    ensures notice !in moduleFiles ==> CollectArtifacts(Apache2, moduleFiles, licenseRelPath).value == [licenseRelPath]
  {
    var r := CollectArtifacts(Apache2, moduleFiles, licenseRelPath).value;
    assert forall i :: 1 <= i < |r| ==> r[i] in r[1..];
  }
}

=== FILE: text.dfy ===
/** String helpers with the behaviour of the Go standard library calls the
    source uses, restricted to ASCII where Go applies Unicode rules. */
module Text {

  /** unicode.ToUpper restricted to ASCII: `a`..`z` become `A`..`Z`. */
  function UpperChar(c: char): char
  {
    if 'a' <= c <= 'z' then (c as int - 'a' as int + 'A' as int) as char else c
  }

  /** strings.ToUpper restricted to ASCII. */
  function Upper(s: string): (r: string)
    ensures |r| == |s|
    ensures forall i :: 0 <= i < |r| ==> !('a' <= r[i] <= 'z')
    ensures forall i :: 0 <= i < |s| && !('a' <= s[i] <= 'z') ==> r[i] == s[i]
    ensures forall i :: 0 <= i < |s| && 'a' <= s[i] <= 'z' ==> r[i] as int == s[i] as int - 32
  {
    seq(|s|, i requires 0 <= i < |s| => UpperChar(s[i]))
  }

  /** Upper-casing is character by character. */
  lemma UpperCharwise(s: string, t: string)
    requires |t| == |s| && forall i :: 0 <= i < |s| ==> t[i] == UpperChar(s[i])
    ensures Upper(s) == t
  {
  }

  /** Upper-casing twice is upper-casing once. */
  lemma UpperIdempotent(s: string)
    ensures Upper(Upper(s)) == Upper(s)
  {
    var u := Upper(s);
    assert forall i :: 0 <= i < |u| ==> Upper(u)[i] == u[i];
  }

  predicate IsLetter(c: char)
  {
    'a' <= c <= 'z' || 'A' <= c <= 'Z'
  }

  /** `sub` occurs in `s` starting at index `i`. */
  predicate OccursAt(s: string, sub: string, i: int)
  {
    0 <= i <= |s| - |sub| && s[i..i + |sub|] == sub
  }

  /** strings.Contains: `sub` occurs somewhere in `s`. */
  predicate Contains(s: string, sub: string)
  {
    exists i :: 0 <= i <= |s| && OccursAt(s, sub, i)
  }

  /** strings.Join. */
  function Join(xs: seq<string>, sep: string): string
  {
    if |xs| == 0 then ""
    else if |xs| == 1 then xs[0]
    else xs[0] + sep + Join(xs[1..], sep)
  }

  /** The separator Go's report uses between license names. */
  const ListSep: string := ", "

  /** Splits a label at every ", " — the inverse of joining with ListSep. */
  function SplitList(s: string): seq<string>
  {
    SplitFrom(s, "")
  }

  /** `acc` is the part of the current item read so far. */
  function SplitFrom(s: string, acc: string): (r: seq<string>)
    ensures |r| >= 1
    decreases |s|
  {
    if |s| == 0 then [acc]
    else if |s| >= 2 && s[0] == ',' && s[1] == ' ' then [acc] + SplitFrom(s[2..], "")
    else SplitFrom(s[1..], acc + [s[0]])
  }

  /** The character `c` does not occur in `s`. */
  predicate Lacks(s: string, c: char)
  {
    forall i :: 0 <= i < |s| ==> s[i] != c
  }

  predicate NoComma(s: string)
  {
    Lacks(s, ',')
  }

  /** A field free of the separator's first character ends where the
      separator starts, so two texts built as field, separator, rest agree
      field for field. */
  lemma FieldSplit(a1: string, r1: string, a2: string, r2: string, sep: string)
    requires |sep| > 0 && Lacks(a1, sep[0]) && Lacks(a2, sep[0])
    requires a1 + sep + r1 == a2 + sep + r2
    ensures a1 == a2 && r1 == r2
  {
    var t := a1 + sep + r1;
    if |a1| < |a2| {
      CharAt(a1, sep, r1, a2, r2);
      assert false;
    } else if |a2| < |a1| {
      CharAt(a2, sep, r2, a1, r1);
      assert false;
    }
    assert a1 == t[..|a1|];
    assert a2 == (a2 + sep + r2)[..|a2|];
    assert r1 == t[|a1| + |sep|..];
    assert r2 == (a2 + sep + r2)[|a2| + |sep|..];
  }

  /** Where the shorter field ends, the separator starts. */
  lemma CharAt(a1: string, sep: string, r1: string, a2: string, r2: string)
    requires |sep| > 0 && |a1| < |a2|
    requires a1 + sep + r1 == a2 + sep + r2
    ensures a2[|a1|] == sep[0]
  {
    assert (a1 + sep + r1)[|a1|] == sep[0];
    assert (a2 + sep + r2)[|a1|] == a2[|a1|];
  }

  /** Reading a comma-free stretch only extends the current item. */
  lemma {:induction false} SplitSkipsItem(x: string, t: string, acc: string)
    requires NoComma(x)
    ensures SplitFrom(x + t, acc) == SplitFrom(t, acc + x)
    decreases |x|
  {
    if |x| == 0 {
      assert x + t == t;
      assert acc + x == acc;
    } else {
      assert (x + t)[0] == x[0];
      assert (x + t)[1..] == x[1..] + t;
      assert NoComma(x[1..]);
      SplitSkipsItem(x[1..], t, acc + [x[0]]);
      assert acc + [x[0]] + x[1..] == acc + x;
    }
  }

  /** Joining comma-free names with ", " loses nothing: splitting gives them back. */
  lemma {:induction false} SplitJoin(xs: seq<string>)
    requires |xs| >= 1
    requires forall k :: 0 <= k < |xs| ==> NoComma(xs[k])
    ensures SplitList(Join(xs, ListSep)) == xs
    decreases |xs|
  {
    if |xs| == 1 {
      SplitSkipsItem(xs[0], "", "");
      assert xs[0] + "" == xs[0];
      assert "" + xs[0] == xs[0];
    } else {
      var rest := Join(xs[1..], ListSep);
      assert Join(xs, ListSep) == xs[0] + (ListSep + rest);
      SplitSkipsItem(xs[0], ListSep + rest, "");
      assert "" + xs[0] == xs[0];
      var t := ListSep + rest;
      assert |t| >= 2 && t[0] == ',' && t[1] == ' ';
      assert t[2..] == rest;
      SplitJoin(xs[1..]);
      assert xs == [xs[0]] + xs[1..];
    }
  }

  /** Go's `<` on strings: lexicographic order of the characters, a proper
      prefix ordering before its extensions. */
  predicate Less(a: string, b: string)
    decreases |a|
  {
    if |a| == 0 then |b| > 0
    else if |b| == 0 then false
    else if a[0] != b[0] then a[0] < b[0]
    else Less(a[1..], b[1..])
  }

  lemma {:induction false} LessIrreflexive(a: string)
    ensures !Less(a, a)
    decreases |a|
  {
    if |a| > 0 {
      LessIrreflexive(a[1..]);
    }
  }

  lemma {:induction false} LessTransitive(a: string, b: string, c: string)
    requires Less(a, b) && Less(b, c)
    ensures Less(a, c)
    decreases |a|
  {
    if |a| > 0 && |b| > 0 && |c| > 0 && a[0] == b[0] && b[0] == c[0] {
      LessTransitive(a[1..], b[1..], c[1..]);
    }
  }

  /** Two different strings are always ordered one way or the other. */
  lemma {:induction false} LessTotal(a: string, b: string)
    requires a != b
    ensures Less(a, b) || Less(b, a)
    decreases |a|
  {
    if |a| > 0 && |b| > 0 && a[0] == b[0] {
      assert a == [a[0]] + a[1..] && b == [b[0]] + b[1..];
      LessTotal(a[1..], b[1..]);
    }
  }
}
